=== FILE: README.md ===
# Mask R-CNN bookkeeping, modelled in Dafny

The detection model in `task7_MaskRCNN/model.py` is a Keras network.
Around the network the `MaskRCNN` class keeps some plain bookkeeping, and
that bookkeeping is what this project models:

- the build-time check that the image height and width are multiples of 64;
- `compute_backbone_shapes`, one `ceil(side / stride)` feature-map shape per
  backbone stride;
- `get_anchors`, a cache of anchor boxes keyed by the image-shape tuple;
- `set_log_dir`, which names a run's log directory `<name><YYYYMMDDTHHMM>`
  and its checkpoint template `mask_rcnn_<name>_{epoch:04d}.h5`. Given a
  checkpoint path, it reads the start time and epoch back with a regular
  expression;
- `find_last_checkpoint`, which picks the run directory whose name starts
  with the lower-cased configuration name and sorts last, and the
  `mask_rcnn` file in it that sorts last;
- the mode fixed at construction, the mode guards of `train` and `detect`,
  and the epoch counter.

Modules, one per component:

| file | module | contents |
|---|---|---|
| `wrappers.dfy` | `Wrappers` | `Option` and `Result`. A `Failure` stands for the exception the source raises. |
| `text.dfy` | `Text` | ASCII character classes, `str.lower`, Python string order, `str.replace`, zero-padded decimals. |
| `shapes.dfy` | `Shapes` | The multiple-of-64 test, ceiling division, `compute_backbone_shapes`. |
| `clock.dfy` | `Clock` | `datetime` validity, the `%Y%m%dT%H%M` stamp and reading it back. |
| `checkpoint_names.dfy` | `CheckpointNames` | Log-directory and checkpoint names, the Keras epoch fill, and the checkpoint regex as a hand-written parser. Also proves the parser sound and complete and the round trip. |
| `checkpoint_search.dfy` | `CheckpointSearch` | `find_last_checkpoint` over a snapshot of the directory walk. |
| `model_config.dfy` | `ModelConfig` | The configuration attributes that are read. |
| `anchors.dfy` | `Anchors` | The anchor cache. The generator is a parameter. |
| `mask_rcnn.dfy` | `MaskRcnn` | Construction, `set_log_dir`, `train`, `detect`, `get_anchors` on the object, and sessions of operations. |

A few source behaviours set how the model is built:

- **Returning state with the exception.** `set_log_dir` resets the epoch
  before it can raise. Each operation on the object therefore returns a
  `Step`: the state afterwards plus the exception it raised, if any.
- **Inputs that stand for the environment.**
  - The clock is a parameter (`now`).
  - A directory walk is a map from each path to its sub-directory and
    file names.
  - The anchor generator and the box normaliser are an `AnchorSource`
    given by the caller.
- **The regular expression.**
  - It is modelled as a parser for the one pattern in `set_log_dir`, with
    `re.match` semantics: the match is anchored at the start, trailing text
    is allowed, and `.` stops at a line break.
  - The greedy `.*` takes the rightmost separator that lets the rest match.
  - `ParseSound` and `ParseComplete` relate the parser to an independent
    description of all the ways a string can be read as a match.

## Model

| member | source | states |
|---|---|---|
| `Shapes.SourceCheckIsDivisibility` | task7_MaskRCNN/model.py:120-122 | The float test `h/2**6 == int(h/2**6)` holds exactly when `h % 64 == 0`, negative sizes included. |
| `Shapes.CeilDiv` | task7_MaskRCNN/model.py:321 | `int(np.ceil(a / b))` for a non-zero divisor is the integer `r` with `r - 1 < a/b <= r`, stated without division. |
| `Shapes.BackboneShapes` | task7_MaskRCNN/model.py:319-322 | One row per stride, in stride order, each the ceiling of both image sides over that stride. It fails exactly when a stride is zero or the image shape has fewer than two entries (with at least one stride). |
| `Shapes.FeatureShapesScaleBack` | task7_MaskRCNN/model.py:120-122 | For sides that are multiples of 64 and positive strides dividing 64, every feature-map side times its stride gives back the image side. |
| `Text.Lower` | task7_MaskRCNN/model.py:259 | `NAME.lower()` keeps the length, leaves no ASCII capital, and changes only capitals, each to the letter 32 code points up. |
| `Text.LexLe` | task7_MaskRCNN/model.py:262 | Python's `<=` on strings: a prefix sorts no later than the longer string, and when the first characters differ they alone decide. The order's laws are the three lemmas below. |
| `Text.LexLeTransitive` | task7_MaskRCNN/model.py:262 | Python's string order, used by `sorted`, is transitive. |
| `Text.LexLeAntisymmetric` | task7_MaskRCNN/model.py:262 | Two strings that each sort no later than the other are equal, so "the last after sorting" is a single string. |
| `Text.ReplaceAllSkips` | task7_MaskRCNN/model.py:291-292 | `str.replace` copies text that cannot start the pattern and continues after it. |
| `Text.ReplaceAllSplit` | task7_MaskRCNN/model.py:291-292 | A character that is not in the pattern cuts `str.replace` in two: the text before it and the text after it are rewritten separately, because no occurrence can span it. |
| `Text.ReplaceAll` | task7_MaskRCNN/model.py:291-292 | `str.replace` leaves a string without the pattern's first character unchanged, and keeps the length when pattern and replacement are equally long. Its scan order is `ReplaceAllSkips`. |
| `Text.Decimal` | task7_MaskRCNN/model.py:291-292 | The `{epoch:04d}` field Keras fills: only digits, and at least as many as the width. `DecimalRoundTrip` and `DecimalWidth` pin the value and the exact width. |
| `Text.DigitsValue` | task7_MaskRCNN/model.py:277-281 | `int()` of `n` digits is below `10**n`. Its inverse relation to `Decimal` is `DecimalRoundTrip` and `DigitsRoundTrip`. |
| `Text.DigitsRoundTrip` | task7_MaskRCNN/model.py:277-286 | Writing back, at its own width, the number read from a digit string gives the string again: the zero padding restores the leading zeros. |
| `Text.DecimalRoundTrip` | task7_MaskRCNN/model.py:281 | `int()` of a zero-padded decimal gives back the number, whatever the padding. |
| `Text.DecimalWidth` | task7_MaskRCNN/model.py:285-286 | A number below `10**w` padded to width `w` has exactly `w` digits. |
| `Clock.NewDateTime` | task7_MaskRCNN/model.py:277-278 | `datetime.datetime(y, mo, d, h, mi)` returns a valid time with those fields and second 0. It raises (None) exactly when no valid time has those fields. |
| `Clock.FormatStamp` | task7_MaskRCNN/model.py:285-286 | `{:%Y%m%dT%H%M}` always gives eight digits, `T`, four digits. |
| `Clock.ParseStamp` | task7_MaskRCNN/model.py:274-278 | The five regex groups read with `int`: a year below 10000 and four fields below 100. `StampRoundTrip` and `ParseStampRoundTrip` relate it to the stamp writer in both directions. |
| `Clock.ParseStampRoundTrip` | task7_MaskRCNN/model.py:277-286 | A stamp whose fields form a real date is written back by `{:%Y%m%dT%H%M}` as the very same text. |
| `Clock.StampRoundTrip` | task7_MaskRCNN/model.py:274-278 | The five regex groups of a written stamp read back as the year, month, day, hour and minute it was written from. |
| `Clock.FormatStampInjective` | task7_MaskRCNN/model.py:285-286 | Two valid times give the same stamp only when they agree to the minute. |
| `CheckpointNames.JoinPath` | task7_MaskRCNN/model.py:285 | POSIX `os.path.join`. An absolute second part replaces the first. Otherwise the result starts with the first part and ends with the second. |
| `CheckpointNames.LogDirFor` | task7_MaskRCNN/model.py:285-286 | The log directory ends with the run's stamp. For a non-empty directory and name, it is the directory without its trailing `/`, one `/`, the lower-cased name and the stamp. |
| `CheckpointNames.CheckpointTemplate` | task7_MaskRCNN/model.py:288-292 | For a log directory without `*` and a name of `[A-Za-z0-9_-]`, the template is the log directory joined with `mask_rcnn_<lower-cased name>_{epoch:04d}.h5`: the replace touches only the placeholder. |
| `CheckpointNames.FillEpoch` | task7_MaskRCNN/model.py:288-292 | The Keras fill of the template: a template without `{` is written unchanged. `CheckpointFileText` gives the file name for a run's template. |
| `CheckpointNames.ParseCheckpointPath` | task7_MaskRCNN/model.py:274-275 | A matched path has at least 34 characters, the length of the shortest text the pattern accepts, and a separator before its first line break. The epoch read is below 10000. `ParseSound`, `ParseComplete` and `ParseUnique` give the full characterisation. |
| `CheckpointNames.NameRunEnd` | task7_MaskRCNN/model.py:274 | The end of the maximal `[\w-]` run at a position: every character before it is a name character and the one at it is not. |
| `CheckpointNames.LastIndexWhere` | task7_MaskRCNN/model.py:274-275 | The greedy `.*`: the rightmost candidate start at or before a bound that satisfies the test, or none when no such start exists. |
| `CheckpointNames.MatchAtComplete` | task7_MaskRCNN/model.py:274-275 | Every well-formed reading of a string matches at its first separator and yields that reading's stamp and epoch. |
| `CheckpointNames.MatchAtSound` | task7_MaskRCNN/model.py:274-275 | Every match at a position comes from a well-formed reading whose prefix ends there and whose groups it returns. |
| `CheckpointNames.ParseComplete` | task7_MaskRCNN/model.py:274-276 | `re.match` succeeds on every path that can be read as a match, provided the part before the first separator has no line break. |
| `CheckpointNames.ParseSound` | task7_MaskRCNN/model.py:274-276 | A successful match is the groups of a well-formed reading of the whole path, namely the reading whose `.*` prefix is longest. |
| `CheckpointNames.ParseUnique` | task7_MaskRCNN/model.py:274-282 | If a reading has no separator after its first one except the second, the match returns exactly that reading's groups. |
| `CheckpointNames.WrittenStem` | task7_MaskRCNN/model.py:288-292 | What the replace and the Keras fill make of the model directory: an `*epoch*` in it is filled with the epoch like the file name's own. A directory without `*` and `{` is left exactly as it is. |
| `CheckpointNames.FilledText` | task7_MaskRCNN/model.py:288-292 | Both substitutions over a run's path act on the directory part and the file part separately. The file part becomes `mask_rcnn_<name>_`, the epoch digits and `.h5`, whatever the directory holds. |
| `CheckpointNames.CheckpointFileText` | task7_MaskRCNN/model.py:285-292 | If the model directory has no `{` and no `}`, the file Keras writes for an epoch spells the expected reading. That reading is the directory (with any `*epoch*` in it filled), the run directory, `mask_rcnn_<name>_`, four epoch digits and `.h5`. A directory without `*` is spelled verbatim. |
| `CheckpointNames.CheckpointRoundTrip` | task7_MaskRCNN/model.py:274-292 | Parsing the file written for epoch `k < 10000` gives back the run's start minute and `k`. This holds for every non-empty name of `[A-Za-z0-9_-]` and every non-empty model directory without `{`, `}` or a line break, including directories holding `*` or `*epoch*`. |
| `CheckpointSearch.Filter` | task7_MaskRCNN/model.py:262 | The filter keeps exactly the listed names with the prefix. |
| `CheckpointSearch.Greatest` | task7_MaskRCNN/model.py:262-263 | `sorted(xs)[-1]` is a listed name that every listed name sorts no later than. |
| `CheckpointSearch.GreatestIsUnique` | task7_MaskRCNN/model.py:262-263 | Only one name has that property. |
| `CheckpointSearch.GreatestIgnoresOrder` | task7_MaskRCNN/model.py:261-262 | The order in which the walk lists names does not change the pick. |
| `CheckpointSearch.FindLastCheckpoint` | task7_MaskRCNN/model.py:258-267 | A missing model directory raises, and so does a missing run directory (no name starts with the lower-cased name). A success is the join of the last matching run directory and the last `mask_rcnn` file in it. |
| `CheckpointSearch.FindsLastCheckpoint` | task7_MaskRCNN/model.py:258-267 | Given the last run directory and the last checkpoint file in it, the search returns exactly their join. |
| `CheckpointSearch.NoFallBackToEarlierDirectory` | task7_MaskRCNN/model.py:263-267 | If the run directory that sorts last has no `mask_rcnn` file, the search fails on that directory. It does not fall back to a directory that sorts earlier. |
| `Anchors.FreshAnchors` | task7_MaskRCNN/model.py:324-336 | The uncached reference computation. It fails exactly when the backbone shapes cannot be computed. |
| `Anchors.GetAnchors` | task7_MaskRCNN/model.py:324-337 | It fails exactly when the backbone shapes fail. On a hit it returns the stored set and changes nothing. On a miss it adds exactly the key, mapped to the fresh normalised set, records the generated set and leaves other entries alone. |
| `Anchors.CacheIsTransparent` | task7_MaskRCNN/model.py:324-337 | With a coherent cache the call returns what the uncached computation returns, and the cache stays coherent. |
| `Anchors.GetAnchorsIdempotent` | task7_MaskRCNN/model.py:328-337 | A second call with the same shape returns the same anchors and leaves the cache as it was. |
| `Anchors.GetAnchorsKeepsEntries` | task7_MaskRCNN/model.py:336 | The call adds only its own key, and every existing entry keeps its value. |
| `Anchors.OnlyMissRecordsGenerated` | task7_MaskRCNN/model.py:328-335 | `self.anchors` changes only on a miss. |
| `Anchors.GetAnchorsAsWritten` | task7_MaskRCNN/model.py:108 | With the cache attribute `None`, as the constructor leaves it, every call raises. With a dictionary it succeeds exactly when the corrected call does. |
| `Anchors.AsWrittenFirstCallRaises` | task7_MaskRCNN/model.py:326-328 | The first call after construction raises as written, for every shape whose backbone shapes exist. The corrected cache returns the fresh anchors. |
| `MaskRcnn.ModeNamed` | task7_MaskRCNN/model.py:104 | Exactly `"training"` and `"inference"` are accepted. |
| `MaskRcnn.CheckImageShape` | task7_MaskRCNN/model.py:120-124 | `build` accepts an image shape exactly when it has three entries or more and both sides are multiples of 64. The multiple-of-64 error is raised exactly when two sides exist and one is not a multiple. |
| `MaskRcnn.MatchedPath` | task7_MaskRCNN/model.py:273-275 | The `if model_path:` test changes nothing for a string argument: the empty path never matches, so only `None` is really skipped. |
| `MaskRcnn.SetLogDir` | task7_MaskRCNN/model.py:269-292 | Mode, configuration, directory and cache are never touched. Without a match, the epoch becomes 0 and the names come from `now`. With a match, the epoch is the file's four-digit number (the `-1 + 1` cancels) and the names come from a time in the parsed minute. If the parsed date is invalid, it raises with the epoch already reset to 0. |
| `MaskRcnn.Construct` | task7_MaskRCNN/model.py:102-124 | Construction succeeds exactly when: the mode name is valid; the shape has at least three entries and sides that are multiples of 64; and, in training mode, no stride is zero. The result has epoch 0, the names of a run started at `now` and a coherent cache. The cache holds only `IMAGE_SHAPE` in training mode and is empty in inference mode. |
| `MaskRcnn.Train` | task7_MaskRCNN/model.py:397-412 | It raises and changes nothing outside training mode. Otherwise it changes only the epoch, to the larger of the old epoch and `epochs`. |
| `MaskRcnn.Detect` | task7_MaskRCNN/model.py:414-416 | It never changes the model. It succeeds exactly in inference mode with `BATCH_SIZE` images, and the mode assert fires first. |
| `MaskRcnn.ModelAnchors` | task7_MaskRCNN/model.py:324-337 | `get_anchors` on the object changes only the cache, and a failed call changes nothing. |
| `MaskRcnn.ResumeRoundTrip` | task7_MaskRCNN/model.py:274-292 | Loading the checkpoint a run wrote for epoch `k < 10000`, at any later time, sets the epoch to `k` and restores that run's log directory and template unchanged. The model directory is assumed free of `{`, `}` and line breaks, as for `CheckpointRoundTrip`. |
| `MaskRcnn.RunKeeps` | task7_MaskRCNN/model.py:104 | Over any session of operations, the mode, configuration and model directory never change. The cache stays coherent and only gains entries, and the names always belong to some run. |
| `MaskRcnn.EpochOnlyResetByLogDir` | task7_MaskRCNN/model.py:270 | A session without `set_log_dir` never lowers the epoch. |
| `MaskRcnn.TrainingSessionEpoch` | task7_MaskRCNN/model.py:412 | A sequence of `train` calls in training mode ends with the largest of the starting epoch and all requested counts. |
| `MaskRcnn.InferenceIgnoresTraining` | task7_MaskRCNN/model.py:399 | In inference mode a sequence of `train` calls leaves the model exactly as it was. |
| `MaskRcnn.MaxEpoch` | task7_MaskRCNN/model.py:412 | The running `max` is at least every value and equals one of them. |

## Left out

- The Keras network is left out: the ResNet-50 backbone, the feature pyramid, the region-proposal head, the classifier and mask heads, and the detection layers. These are layer graphs over learned floats. The helper library that holds the proposal, target and ROI-align layers is not part of this model.
- `generate_pyramid_anchors` and `norm_boxes` belong to the helper library, which is not part of this model. They enter only as the caller-supplied `AnchorSource`.
- The loss lambdas and everything `train` does besides the mode assert and the epoch update (`makedirs`, the callbacks, `model.fit`) are left out. So are `train_model`, `validate_model`, `ingest_data`, `split_data` and the script entry point. They are optimiser and I/O code or stubs.
- `load_weights` is h5py and Keras I/O. Its only bookkeeping effect is its call to `set_log_dir(file_path)`, which `SetLogDir` and `ResumeRoundTrip` cover.
- `Text.Lower` models `str.lower()` on ASCII letters only. Python also lower-cases non-ASCII capitals, so a non-ASCII configuration name can name its runs differently from the model.
- `CheckpointNames.NameRunEnd` and the parser built on it read `\w` and `\d` as ASCII classes. In Python they are Unicode-aware, so a path with non-ASCII letters or digits can match differently from the model.
- `os.path.join` is modelled as on POSIX only.
- `CheckpointNames.FillEpoch` models the Keras fill of `{epoch:04d}` as a replacement of that one field. Keras calls `str.format` on the whole path. That treats any other `{` as the start of a field, writes `{{` and `}}` as single braces, and raises `ValueError` on a lone `}`. `CheckpointFileText`, `CheckpointRoundTrip`, `CheckpointPathMatches` and `ResumeRoundTrip` therefore assume a model directory with no `{` and no `}`. Paths with braces are not covered.
- A model directory with a line break is excluded from the round trips because the source itself does not recover the run there. `.` cannot cross the line break, so `re.match` reads only text before it (the condition of `ParseComplete`). So the run is not recovered there. Either the match fails and `set_log_dir` starts a fresh run at epoch 0, or it reads a stamp and an epoch from text before the line break. This is a limit of the source, not a gap in the proof.
- `CheckpointRoundTrip`: for epochs of 10000 or more the file name has five or more digits, and the regex reads only the last four. The round trip is stated for epochs below 10000 only.
- `CheckpointSearch.FindLastCheckpoint` picks names by sort order, as the source does, not by time. Sort order follows recency only among one configuration's own runs and at epochs below 10000. A directory such as `shapes_old20230101T0000` sorts after `shapes20240301T1200` for the key `shapes`. A file for epoch 10000 sorts before the file for epoch 9999.
- `Clock.FormatStamp` models `%Y` as four zero-padded digits. Some C libraries do not pad years below 1000.
- Microseconds of `datetime.now()` are left out, because no name uses them.
- `Shapes.SourceCheckIsDivisibility` and `Shapes.CeilDiv` compute with exact rationals. Python's true division is a float, which differs from the exact result only for sides beyond 2**53.
- The model assumes `assert` statements are active. Under `python -O` the mode and batch-size asserts disappear.
- `print` calls and the TensorBoard callback are left out, because they only log.
- Three source defects are noted here but not modelled, because they sit in code outside the bookkeeping:
  - `build` calls `backbone_model.resnet50` (line 147), but the method is defined as `resnet_50` (line 73). The model follows the evident intent that construction continues past the backbone.
  - The loss lambda at line 227 uses `self.target_class_ids`, which is never assigned.
  - `train_model` calls `MaskRCNN(config)` with the wrong number of arguments (line 434).

## Findings

| source | as written | input that shows it | evidently intended | confidence | as-written member | corrected member |
|---|---|---|---|---|---|---|
| task7_MaskRCNN/model.py:108 | The constructor sets `self._anchor_cache = None`. `get_anchors` then finds the attribute present, skips `self._anchor_cache = {}`, and `tuple(image_shape) in None` raises `TypeError`. | Any first `get_anchors` call. Construction cannot reach it as written, because `build` stops earlier at line 147 (see "Left out"). With line 147 corrected, constructing in training mode with `IMAGE_SHAPE = [256, 256, 3]` and strides `[4, 8, 16, 32, 64]` raises at line 328. So does calling `get_anchors([256, 256, 3])` on a model constructed in inference mode. | The cache starts as an empty dictionary, and the first call computes and stores the anchors. | high (not executed) | `Anchors.GetAnchorsAsWritten` | `Anchors.GetAnchors` |

=== FILE: anchors.dfy ===
/**
 * `get_anchors`: a get-or-compute cache of normalised anchor boxes keyed by
 * the image-shape tuple. The anchor generator and the box normalisation
 * come from a helper library and are given as one deterministic source;
 * the properties here are about the cache, not about the geometry.
 */
module Anchors {
  import opened Wrappers
  import opened Shapes
  import opened ModelConfig

  /** One anchor box, `(y1, x1, y2, x2)`. */
  datatype Box = Box(y1: real, x1: real, y2: real, x2: real)

  type AnchorSet = seq<Box>

  /** `generate_pyramid_anchors(scales, ratios, backbone_shapes, strides,
      anchor_stride)` and `norm_boxes(boxes, image_shape[:2])`. */
  datatype AnchorSource = AnchorSource(
    generate: (seq<int>, seq<real>, seq<FeatureShape>, seq<int>, int) -> AnchorSet,
    normalize: (AnchorSet, seq<int>) -> AnchorSet)

  /** `self._anchor_cache` and `self.anchors`, the last un-normalised set generated. */
  datatype AnchorCache = AnchorCache(entries: map<seq<int>, AnchorSet>, last: Option<AnchorSet>)

  /** The cache a freshly constructed model starts with. */
  const EmptyCache: AnchorCache := AnchorCache(map[], None)

  /** `image_shape[:2]`. */
  function LeadingSides(imageShape: seq<int>): (r: seq<int>)
    ensures |r| == if |imageShape| < 2 then |imageShape| else 2
    ensures r <= imageShape
  {
    if |imageShape| < 2 then imageShape else imageShape[..2]
  }

  /** The generator's output before normalisation. */
  function Generated(cfg: Config, src: AnchorSource, shapes: seq<FeatureShape>): AnchorSet {
    src.generate(cfg.anchorScales, cfg.anchorRatios, shapes, cfg.backboneStrides, cfg.anchorStride)
  }

  /** The anchors for a shape computed from scratch, with no cache at all. */
  function FreshAnchors(cfg: Config, src: AnchorSource, imageShape: seq<int>): (r: Result<AnchorSet, ShapeError>)
    ensures r.Failure? <==> BackboneShapes(imageShape, cfg.backboneStrides).Failure?
  {
    match BackboneShapes(imageShape, cfg.backboneStrides)
    case Failure(e) => Failure(e)
    case Success(shapes) => Success(src.normalize(Generated(cfg, src, shapes), LeadingSides(imageShape)))
  }

  /** Every cached entry is what a computation from scratch gives. */
  predicate Coherent(cache: AnchorCache, cfg: Config, src: AnchorSource) {
    forall k :: k in cache.entries ==> FreshAnchors(cfg, src, k) == Success(cache.entries[k])
  }

  /** `get_anchors(image_shape)`: the backbone shapes are computed (and may
      raise) first; a hit returns the stored set, a miss generates,
      records `self.anchors`, and stores the normalised set. */
  function GetAnchors(cache: AnchorCache, cfg: Config, src: AnchorSource, imageShape: seq<int>)
    : (r: Result<(AnchorCache, AnchorSet), ShapeError>)
    ensures r.Failure? <==> BackboneShapes(imageShape, cfg.backboneStrides).Failure?
    ensures r.Success? && imageShape in cache.entries ==> r.value == (cache, cache.entries[imageShape])
    ensures r.Success? && imageShape !in cache.entries ==>
      && r.value.0.entries == cache.entries[imageShape := r.value.1]
      && Success(r.value.1) == FreshAnchors(cfg, src, imageShape)
      && r.value.0.last == Some(Generated(cfg, src, BackboneShapes(imageShape, cfg.backboneStrides).value))
      && src.normalize(r.value.0.last.value, LeadingSides(imageShape)) == r.value.1
  {
    match BackboneShapes(imageShape, cfg.backboneStrides)
    case Failure(e) => Failure(e)
    case Success(shapes) =>
      if imageShape in cache.entries then Success((cache, cache.entries[imageShape]))
      else
        var a := Generated(cfg, src, shapes);
        var normalized := src.normalize(a, LeadingSides(imageShape));
        Success((AnchorCache(cache.entries[imageShape := normalized], Some(a)), normalized))
  }

  /** A coherent cache is invisible: the call returns what a computation
      from scratch gives, and the cache stays coherent. */
  lemma CacheIsTransparent(cache: AnchorCache, cfg: Config, src: AnchorSource, imageShape: seq<int>)
    requires Coherent(cache, cfg, src)
    ensures GetAnchors(cache, cfg, src, imageShape).Success? ==>
      && Success(GetAnchors(cache, cfg, src, imageShape).value.1) == FreshAnchors(cfg, src, imageShape)
      && Coherent(GetAnchors(cache, cfg, src, imageShape).value.0, cfg, src)
    ensures GetAnchors(cache, cfg, src, imageShape).Failure? ==>
      GetAnchors(cache, cfg, src, imageShape).error == FreshAnchors(cfg, src, imageShape).error
  {
  }

  /** Asking twice for the same shape gives the same anchors, and the second
      call changes nothing. */
  lemma GetAnchorsIdempotent(cache: AnchorCache, cfg: Config, src: AnchorSource, imageShape: seq<int>)
    requires GetAnchors(cache, cfg, src, imageShape).Success?
    ensures var (c1, a1) := GetAnchors(cache, cfg, src, imageShape).value;
      GetAnchors(c1, cfg, src, imageShape) == Success((c1, a1))
  {
  }

  /** The cache only grows: no entry is dropped or changed. */
  lemma GetAnchorsKeepsEntries(cache: AnchorCache, cfg: Config, src: AnchorSource, imageShape: seq<int>)
    requires GetAnchors(cache, cfg, src, imageShape).Success?
    ensures var c1 := GetAnchors(cache, cfg, src, imageShape).value.0;
      && c1.entries.Keys == cache.entries.Keys + {imageShape}
      && forall k :: k in cache.entries ==> c1.entries[k] == cache.entries[k]
  {
  }

  /** Only a miss touches `self.anchors`. */
  lemma OnlyMissRecordsGenerated(cache: AnchorCache, cfg: Config, src: AnchorSource, imageShape: seq<int>)
    requires GetAnchors(cache, cfg, src, imageShape).Success?
    ensures GetAnchors(cache, cfg, src, imageShape).value.0.last != cache.last ==> imageShape !in cache.entries
  {
  }

  /** The exception `get_anchors` raises as written when `_anchor_cache` is `None`. */
  datatype AsWrittenError = BackboneError(e: ShapeError) | NoneIsNotIterable

  /** `get_anchors` as written, over the attribute `_anchor_cache` that the
      constructor sets to `None`: the attribute exists, so `hasattr` never
      replaces it with `{}`, and the membership test on `None` raises. */
  function GetAnchorsAsWritten(cache: Option<map<seq<int>, AnchorSet>>, cfg: Config, src: AnchorSource,
                               imageShape: seq<int>)
    : (r: Result<(Option<map<seq<int>, AnchorSet>>, AnchorSet), AsWrittenError>)
    ensures cache.None? ==> r.Failure?
    ensures cache.Some? ==>
      (r.Success? <==> GetAnchors(AnchorCache(cache.value, None), cfg, src, imageShape).Success?)
  {
    match BackboneShapes(imageShape, cfg.backboneStrides)
    case Failure(e) => Failure(BackboneError(e))
    case Success(shapes) =>
      match cache
      case None => Failure(NoneIsNotIterable)
      case Some(entries) =>
        if imageShape in entries then Success((cache, entries[imageShape]))
        else
          var normalized := src.normalize(Generated(cfg, src, shapes), LeadingSides(imageShape));
          Success((Some(entries[imageShape := normalized]), normalized))
  }

  /** As written, the first call after construction raises for every shape
      whose backbone shapes can be computed, where the evident intent (an
      empty cache) returns the fresh anchors. */
  lemma AsWrittenFirstCallRaises(cfg: Config, src: AnchorSource, imageShape: seq<int>)
    requires BackboneShapes(imageShape, cfg.backboneStrides).Success?
    ensures GetAnchorsAsWritten(None, cfg, src, imageShape) == Failure(NoneIsNotIterable)
    ensures GetAnchors(EmptyCache, cfg, src, imageShape).Success?
    ensures Success(GetAnchors(EmptyCache, cfg, src, imageShape).value.1) == FreshAnchors(cfg, src, imageShape)
  {
  }
}

=== FILE: checkpoint_names.dfy ===
/**
 * Names of training runs and their checkpoint files: the log directory
 * `<modelDir>/<name><YYYYMMDDTHHMM>`, the checkpoint template
 * `<logDir>/mask_rcnn_<name>_{epoch:04d}.h5`, and the regex that reads a
 * checkpoint path back into a timestamp and an epoch number.
 *
 * The pattern reads: any text without a line break, a separator (`/` or a
 * backslash), a run of `[\w-]` characters ending in an `\d{8}T\d{4}` stamp, a
 * separator, `mask_rcnn_`, a run of `[\w-]` characters ending in four
 * digits, and `.h5`. It is applied with `re.match`, which anchors at the
 * start only and accepts any trailing text. It is modelled as a parser for
 * this one shape: `Decomposition` says what a match is, `MatchAt` finds the
 * match whose first separator is at a given index, and `ParseCheckpointPath`
 * picks the index Python's backtracking picks.
 */
module CheckpointNames {
  import opened Wrappers
  import opened Text
  import opened Clock

  const FilePrefix: string := "mask_rcnn_"
  const FileSuffix: string := ".h5"
  const EpochPlaceholder: string := "*epoch*"
  const EpochField: string := "{epoch:04d}"

  /** POSIX `os.path.join(a, b)`. */
  function JoinPath(a: string, b: string): (r: string)
    ensures |b| > 0 && b[0] == '/' ==> r == b
    ensures !(|b| > 0 && b[0] == '/') ==> StartsWith(r, a) && |r| >= |a| + |b|
    ensures r[|r| - |b|..] == b
  {
    if |b| > 0 && b[0] == '/' then b
    else if a == [] || a[|a| - 1] == '/' then a + b
    else a + "/" + b
  }

  /** `set_log_dir`: `os.path.join(model_dir, NAME.lower() + now)`. */
  function LogDirFor(modelDir: string, name: string, now: DateTime): (r: string)
    requires Valid(now)
    ensures |r| >= 13 && r[|r| - 13..] == FormatStamp(now)
    ensures |modelDir| > 0 && |name| > 0 && name[0] != '/' ==>
      r == DirectoryStem(modelDir) + "/" + (Lower(name) + FormatStamp(now))
  {
    var b := Lower(name) + FormatStamp(now);
    assert b[|b| - 13..] == FormatStamp(now);
    if |modelDir| > 0 && |name| > 0 && name[0] != '/' then
      JoinRelative(modelDir, b);
      JoinPath(modelDir, b)
    else
      JoinPath(modelDir, b)
  }

  /** `set_log_dir`: the per-epoch file name with `*epoch*` turned into the
      Keras field `{epoch:04d}` (every occurrence in the whole path). */
  function CheckpointTemplate(logDir: string, name: string): (r: string)
    ensures '*' !in logDir && AllNameChars(name) ==>
      r == JoinPath(logDir, (FilePrefix + Lower(name) + "_") + (EpochField + FileSuffix))
  {
    TemplateFields(logDir, name);
    ReplaceAll(JoinPath(logDir, FileNamePattern(Lower(name))), EpochPlaceholder, EpochField)
  }

  /** Joining never splits a relative second part: text appended to it
      ends up at the end of the joined path. */
  lemma JoinPathAppend(a: string, b: string, c: string)
    requires |b| > 0 && b[0] != '/'
    ensures JoinPath(a, b + c) == JoinPath(a, b) + c
  {
    assert (b + c)[0] == b[0];
  }

  /** Only the `*epoch*` of the file name is replaced when neither the log
      directory nor the name holds a `*`. */
  lemma TemplateFields(logDir: string, name: string)
    ensures '*' !in logDir && AllNameChars(name) ==>
      ReplaceAll(JoinPath(logDir, FileNamePattern(Lower(name))), EpochPlaceholder, EpochField)
      == JoinPath(logDir, (FilePrefix + Lower(name) + "_") + (EpochField + FileSuffix))
  {
    if '*' !in logDir && AllNameChars(name) {
      var p := FilePrefix + Lower(name) + "_";
      LowerKeepsNameChars(name);
      NameCharsAvoid(Lower(name));
      JoinPathAppend(logDir, p, EpochPlaceholder + FileSuffix);
      JoinPathAppend(logDir, p, EpochField + FileSuffix);
      TemplateText(JoinPath(logDir, p));
    }
  }

  /** `mask_rcnn_{name}_*epoch*.h5`, before any substitution. */
  function FileNamePattern(lname: string): string {
    (FilePrefix + lname + "_") + (EpochPlaceholder + FileSuffix)
  }

  /** The file Keras writes after an epoch: the `{epoch:04d}` field of the
      template filled with the (1-based) epoch number. */
  function FillEpoch(template: string, epoch: nat): (r: string)
    ensures '{' !in template ==> r == template
  {
    ReplaceAll(template, EpochField, Decimal(epoch, 4))
  }

  /** End of the maximal run of `[\w-]` characters starting at `i`. */
  function NameRunEnd(s: string, i: nat): (j: nat)
    requires i <= |s|
    ensures i <= j <= |s|
    ensures forall k :: i <= k < j ==> IsNameChar(s[k])
    ensures j < |s| ==> !IsNameChar(s[j])
    decreases |s| - i
  {
    if i < |s| && IsNameChar(s[i]) then NameRunEnd(s, i + 1) else i
  }

  /** A run is determined by where it starts. */
  lemma NameRunEndIs(s: string, i: nat, j: nat)
    requires i <= j <= |s|
    requires forall k :: i <= k < j ==> IsNameChar(s[k])
    requires j < |s| ==> !IsNameChar(s[j])
    ensures NameRunEnd(s, i) == j
  {
  }

  /** What the regex captures: the stamp's five numbers and the epoch. */
  datatype CheckpointMatch = CheckpointMatch(stamp: Stamp, epoch: nat)

  /** The match whose first `[/\\]` is at index `i`, if any. Once that index
      is fixed every other part is forced: `[\w-]+` followed by a character
      outside `[\w-]` must take the whole run. */
  function MatchAt(s: string, i: nat): Option<CheckpointMatch> {
    if i >= |s| || !IsSeparator(s[i]) then None
    else MatchRunDirectory(s, i, NameRunEnd(s, i + 1))
  }

  /** The directory part `[\w-]+\d{8}T\d{4}[/\\]mask_rcnn_`, whose name run
      spans `(i, j)`. */
  function MatchRunDirectory(s: string, i: nat, j: nat): Option<CheckpointMatch>
    requires i < j <= |s|
  {
    if j - (i + 1) < 14 || j >= |s| || !IsSeparator(s[j]) || !IsStampText(s[j - 13..j]) then None
    else if !StartsWith(s[j + 1..], FilePrefix) then None
    else MatchFile(s, j, NameRunEnd(s, j + 1 + |FilePrefix|))
  }

  /** The file part `[\w-]+(\d{4})\.h5`, whose name run ends at `e`. */
  function MatchFile(s: string, j: nat, e: nat): Option<CheckpointMatch>
    requires 13 <= j < |s| && IsStampText(s[j - 13..j])
    requires j + 1 + |FilePrefix| <= e <= |s|
  {
    if e - (j + 1 + |FilePrefix|) < 5 || !AllDigits(s[e - 4..e]) || !StartsWith(s[e..], FileSuffix) then None
    else Some(CheckpointMatch(ParseStamp(s[j - 13..j]), DigitsValue(s[e - 4..e])))
  }

  /** Index of the first line break, or the length: `.*` cannot cross one. */
  function LineEnd(s: string): (n: nat)
    ensures n <= |s|
    ensures forall k :: 0 <= k < n ==> s[k] != '\n'
    ensures n < |s| ==> s[n] == '\n'
  {
    if |s| == 0 then 0
    else if s[0] == '\n' then 0
    else 1 + LineEnd(s[1..])
  }

  /** The largest index at most `i` satisfying `p`. */
  function LastIndexWhere(p: nat -> bool, i: nat): (r: Option<nat>)
    ensures r.Some? ==> r.value <= i && p(r.value)
    ensures r.Some? ==> forall k :: r.value < k <= i ==> !p(k)
    ensures r.None? ==> forall k :: 0 <= k <= i ==> !p(k)
  {
    if p(i) then Some(i)
    else if i == 0 then None
    else LastIndexWhere(p, i - 1)
  }

  /** `re.match(regex, path)`: greedy `.*` backs off from the end of the
      first line, so the match with the rightmost first separator wins. */
  function ParseCheckpointPath(path: string): (r: Option<CheckpointMatch>)
    ensures r.Some? ==> |path| >= ShortestMatch && r.value.epoch < 10000
    ensures r.Some? ==> exists k :: 0 <= k < LineEnd(path) && IsSeparator(path[k])
  {
    match LastIndexWhere((k: nat) => MatchAt(path, k).Some?, LineEnd(path))
    case None => None
    case Some(i) =>
      MatchAtBounds(path, i);
      assert i < LineEnd(path) && IsSeparator(path[i]);
      MatchAt(path, i)
  }

  /** The length of the shortest text the pattern accepts: a separator, a
      one-character name with its 13-character stamp, a separator,
      `mask_rcnn_`, one name character and four digits, and `.h5`. */
  const ShortestMatch: nat := 34

  /** A match at `i` starts with a separator, has room for the shortest
      match after `i`, and reads four digits as its epoch. */
  lemma MatchAtBounds(s: string, i: nat)
    requires MatchAt(s, i).Some?
    ensures i < |s| && IsSeparator(s[i]) && i + ShortestMatch <= |s|
    ensures MatchAt(s, i).value.epoch < 10000
  {
    var j, e := MatchAtParts(s, i);
    assert Pow10(4) == 10000;
  }

  /** One way of reading a string as a match of the regex. */
  datatype Decomposition = Decomposition(
    prefix: string,         // .*
    sep1: char,             // [/\\]
    runName: string,        // [\w-]+
    stamp: string,          // (\d{4})(\d{2})(\d{2})T(\d{2})(\d{2})
    sep2: char,             // [/\\]
    fileName: string,       // [\w-]+ after mask_rcnn_
    epochDigits: string,    // (\d{4})
    rest: string)           // whatever follows .h5

  /** The character-class constraints of every part after the prefix. */
  predicate TailWellFormed(d: Decomposition) {
    && IsSeparator(d.sep1)
    && |d.runName| > 0 && AllNameChars(d.runName)
    && IsStampText(d.stamp)
    && IsSeparator(d.sep2)
    && |d.fileName| > 0 && AllNameChars(d.fileName)
    && |d.epochDigits| == 4 && AllDigits(d.epochDigits)
  }

  predicate WellFormed(d: Decomposition) {
    '\n' !in d.prefix && TailWellFormed(d)
  }

  /** The text from the file-name prefix on. */
  function FileText(d: Decomposition): string {
    FilePrefix + ((d.fileName + d.epochDigits) + (FileSuffix + d.rest))
  }

  /** The text after the first separator. */
  function DirectoryText(d: Decomposition): string {
    (d.runName + d.stamp) + ([d.sep2] + FileText(d))
  }

  /** The string a decomposition spells. */
  function TextOf(d: Decomposition): string {
    d.prefix + ([d.sep1] + DirectoryText(d))
  }

  /** Index of the second separator in `TextOf(d)`. */
  function DirectoryEnd(d: Decomposition): nat {
    |d.prefix| + 1 + |d.runName| + |d.stamp|
  }

  /** Index where the epoch's name run ends in `TextOf(d)`. */
  function FileEnd(d: Decomposition): nat {
    DirectoryEnd(d) + 1 + |FilePrefix| + |d.fileName| + |d.epochDigits|
  }

  function Groups(d: Decomposition): CheckpointMatch
    requires TailWellFormed(d)
  {
    CheckpointMatch(ParseStamp(d.stamp), DigitsValue(d.epochDigits))
  }

  /** A run of name characters that is followed by a non-name character
      (or the end) is the maximal run. */
  lemma RunBeforeStop(s: string, i: nat, run: string, tail: string)
    requires i <= |s| && s[i..] == run + tail
    requires AllNameChars(run)
    requires |tail| > 0 ==> !IsNameChar(tail[0])
    ensures NameRunEnd(s, i) == i + |run|
  {
    forall k | i <= k < i + |run|
      ensures IsNameChar(s[k])
    {
      assert s[k] == s[i..][k - i] == run[k - i];
    }
    if i + |run| < |s| {
      assert s[i + |run|] == s[i..][|run|] == tail[0];
    }
    NameRunEndIs(s, i, i + |run|);
  }

  /** `MatchAt` succeeds when each of its checks passes. */
  lemma MatchAtFromParts(s: string, i: nat, j: nat, e: nat, stamp: string, epochDigits: string)
    requires i < |s| && IsSeparator(s[i])
    requires NameRunEnd(s, i + 1) == j && j - (i + 1) >= 14
    requires j < |s| && IsSeparator(s[j]) && IsStampText(stamp) && s[j - 13..j] == stamp
    requires StartsWith(s[j + 1..], FilePrefix)
    requires j + 1 + |FilePrefix| <= |s| && NameRunEnd(s, j + 1 + |FilePrefix|) == e
    requires e - (j + 1 + |FilePrefix|) >= 5 && AllDigits(epochDigits) && s[e - 4..e] == epochDigits
    requires StartsWith(s[e..], FileSuffix)
    ensures MatchAt(s, i) == Some(CheckpointMatch(ParseStamp(stamp), DigitsValue(epochDigits)))
  {
  }

  /** Dropping in two steps is dropping once. */
  lemma DropDrop(s: string, x: string, a: nat, y: string)
    requires a <= |s| && s[a..] == x + y
    ensures s[a + |x|..] == y
  {
    assert s[a..][|x|..] == y;
  }

  /** A concatenation of name-character strings is one. */
  lemma NameCharsConcat(x: string, y: string)
    requires AllNameChars(x) && AllNameChars(y)
    ensures AllNameChars(x + y)
  {
    forall i | 0 <= i < |x + y|
      ensures IsNameChar((x + y)[i])
    {
      if i >= |x| {
        assert (x + y)[i] == y[i - |x|];
      }
    }
  }

  /** The directory run of a decomposition's text ends right before its
      second separator, and its last 13 characters are the stamp. */
  lemma DirectoryRunOf(d: Decomposition)
    requires TailWellFormed(d)
    ensures |d.prefix| < |TextOf(d)| && TextOf(d)[|d.prefix|] == d.sep1
    ensures DirectoryEnd(d) < |TextOf(d)| && TextOf(d)[DirectoryEnd(d)] == d.sep2
    ensures NameRunEnd(TextOf(d), |d.prefix| + 1) == DirectoryEnd(d)
    ensures TextOf(d)[DirectoryEnd(d) - 13..DirectoryEnd(d)] == d.stamp
    ensures TextOf(d)[DirectoryEnd(d) + 1..] == FileText(d)
  {
    var s := TextOf(d);
    var p := |d.prefix|;
    var run := d.runName + d.stamp;
    var j := DirectoryEnd(d);
    var t3 := [d.sep2] + FileText(d);
    assert s[p..] == [d.sep1] + DirectoryText(d);
    DropDrop(s, [d.sep1], p, DirectoryText(d));
    DropDrop(s, run, p + 1, t3);
    DropDrop(s, [d.sep2], j, FileText(d));
    assert s[p] == s[p..][0];
    assert s[j] == s[j..][0];
    assert AllNameChars(d.stamp);
    NameCharsConcat(d.runName, d.stamp);
    RunBeforeStop(s, p + 1, run, t3);
    assert s[p + 1..j] == run by {
      assert s[p + 1..][..|run|] == run;
    }
    assert s[j - 13..j] == d.stamp by {
      assert s[p + 1..j][|d.runName|..] == d.stamp;
    }
  }

  /** The file part of a decomposition's text: the fixed prefix, the name
      run ending in the four epoch digits, then the suffix. */
  lemma FileRunOf(s: string, j: nat, d: Decomposition)
    requires TailWellFormed(d)
    requires j < |s| && s[j + 1..] == FileText(d)
    ensures StartsWith(s[j + 1..], FilePrefix)
    ensures j + 1 + |FilePrefix| <= |s|
    ensures NameRunEnd(s, j + 1 + |FilePrefix|) == j + 1 + |FilePrefix| + |d.fileName| + |d.epochDigits|
    ensures s[j + 1 + |FilePrefix| + |d.fileName|..j + 1 + |FilePrefix| + |d.fileName| + |d.epochDigits|] == d.epochDigits
    ensures StartsWith(s[j + 1 + |FilePrefix| + |d.fileName| + |d.epochDigits|..], FileSuffix)
  {
    var file := d.fileName + d.epochDigits;
    var k := j + 1 + |FilePrefix|;
    var e := k + |file|;
    DropDrop(s, FilePrefix, j + 1, file + (FileSuffix + d.rest));
    NameCharsConcat(d.fileName, d.epochDigits);
    RunBeforeStop(s, k, file, FileSuffix + d.rest);
    DropDrop(s, file, k, FileSuffix + d.rest);
    assert s[k..e] == file by {
      assert s[k..][..|file|] == file;
    }
    assert s[e - 4..e] == d.epochDigits by {
      assert s[k..e][|d.fileName|..] == d.epochDigits;
    }
  }

  /** Every decomposition is found by `MatchAt` at its first separator,
      with its own groups. */
  lemma MatchAtComplete(d: Decomposition)
    requires TailWellFormed(d)
    ensures MatchAt(TextOf(d), |d.prefix|) == Some(Groups(d))
  {
    var s := TextOf(d);
    var j := DirectoryEnd(d);
    DirectoryRunOf(d);
    FileRunOf(s, j, d);
    MatchAtFromParts(s, |d.prefix|, j, FileEnd(d), d.stamp, d.epochDigits);
  }

  /** A slice followed by the rest is the suffix it starts. */
  lemma SliceThenRest(s: string, a: nat, b: nat)
    requires a <= b <= |s|
    ensures s[a..b] + s[b..] == s[a..]
  {
  }

  /** What a successful `MatchAt` has checked. */
  lemma MatchAtParts(s: string, i: nat) returns (j: nat, e: nat)
    requires MatchAt(s, i).Some?
    ensures i < |s| && IsSeparator(s[i])
    ensures j == NameRunEnd(s, i + 1) && i + 15 <= j < |s|
    ensures IsSeparator(s[j]) && IsStampText(s[j - 13..j])
    ensures StartsWith(s[j + 1..], FilePrefix)
    ensures j + 1 + |FilePrefix| + 5 <= e && e == NameRunEnd(s, j + 1 + |FilePrefix|)
    ensures AllDigits(s[e - 4..e]) && StartsWith(s[e..], FileSuffix)
    ensures MatchAt(s, i).value == CheckpointMatch(ParseStamp(s[j - 13..j]), DigitsValue(s[e - 4..e]))
  {
    j := NameRunEnd(s, i + 1);
    e := NameRunEnd(s, j + 1 + |FilePrefix|);
  }

  /** Each match `MatchAt` reports is a decomposition of the text whose
      first separator is at `i`, and reports that decomposition's groups. */
  lemma MatchAtSound(s: string, i: nat) returns (d: Decomposition)
    requires MatchAt(s, i).Some?
    ensures TailWellFormed(d) && TextOf(d) == s && |d.prefix| == i
    ensures Groups(d) == MatchAt(s, i).value
  {
    var j, e := MatchAtParts(s, i);
    var k := j + 1 + |FilePrefix|;
    d := Decomposition(s[..i], s[i], s[i + 1..j - 13], s[j - 13..j], s[j],
                       s[k..e - 4], s[e - 4..e], s[e + |FileSuffix|..]);
    assert AllNameChars(d.runName) by {
      forall x | 0 <= x < |d.runName|
        ensures IsNameChar(d.runName[x])
      {
        assert d.runName[x] == s[i + 1 + x];
      }
    }
    assert AllNameChars(d.fileName) by {
      forall x | 0 <= x < |d.fileName|
        ensures IsNameChar(d.fileName[x])
      {
        assert d.fileName[x] == s[k + x];
      }
    }
    TextOfSlices(s, i, j, e, d);
  }

  /** The file part of `TextOfSlices`. */
  lemma FileSlices(s: string, j: nat, e: nat, fileName: string, epochDigits: string, rest: string)
    requires j + 1 + |FilePrefix| + 5 <= e && e + |FileSuffix| <= |s|
    requires StartsWith(s[j + 1..], FilePrefix) && StartsWith(s[e..], FileSuffix)
    requires fileName == s[j + 1 + |FilePrefix|..e - 4]
    requires epochDigits == s[e - 4..e]
    requires rest == s[e + |FileSuffix|..]
    ensures FilePrefix + ((fileName + epochDigits) + (FileSuffix + rest)) == s[j + 1..]
  {
    var k := j + 1 + |FilePrefix|;
    SliceThenRest(s, e, e + |FileSuffix|);
    assert FileSuffix + rest == s[e..];
    SliceThenRest(s, e - 4, e);
    SliceThenRest(s, k, e - 4);
    assert (fileName + epochDigits) + (FileSuffix + rest) == s[k..];
    SliceThenRest(s, j + 1, k);
  }

  /** Consecutive slices of `s` put back together spell `s`. */
  lemma TextOfSlices(s: string, i: nat, j: nat, e: nat, d: Decomposition)
    requires i + 15 <= j && j + 1 + |FilePrefix| + 5 <= e && e + |FileSuffix| <= |s|
    requires StartsWith(s[j + 1..], FilePrefix) && StartsWith(s[e..], FileSuffix)
    requires d == Decomposition(s[..i], s[i], s[i + 1..j - 13], s[j - 13..j], s[j],
                                s[j + 1 + |FilePrefix|..e - 4], s[e - 4..e], s[e + |FileSuffix|..])
    ensures TextOf(d) == s
  {
    FileSlices(s, j, e, d.fileName, d.epochDigits, d.rest);
    assert FileText(d) == s[j + 1..];
    SliceThenRest(s, j, j + 1);
    assert [d.sep2] + FileText(d) == s[j..];
    SliceThenRest(s, j - 13, j);
    SliceThenRest(s, i + 1, j - 13);
    assert DirectoryText(d) == s[i + 1..];
    SliceThenRest(s, i, i + 1);
    assert [d.sep1] + DirectoryText(d) == s[i..];
    assert s[..i] + s[i..] == s;
  }

  /** A prefix without line breaks lies within the first line. */
  lemma LineEndAfterPrefix(s: string, prefix: string)
    requires '\n' !in prefix && |prefix| <= |s| && s[..|prefix|] == prefix
    ensures |prefix| <= LineEnd(s)
  {
  }

  /** A decomposition's text starts with its prefix. */
  lemma TextOfStartsWithPrefix(d: Decomposition)
    ensures |d.prefix| <= |TextOf(d)| && TextOf(d)[..|d.prefix|] == d.prefix
  {
  }

  /** `re.match` finds every path that can be read as a match. */
  lemma ParseComplete(d: Decomposition)
    requires WellFormed(d)
    ensures ParseCheckpointPath(TextOf(d)).Some?
  {
    var s := TextOf(d);
    MatchAtComplete(d);
    TextOfStartsWithPrefix(d);
    LineEndAfterPrefix(s, d.prefix);
    var p := (k: nat) => MatchAt(s, k).Some?;
    assert p(|d.prefix|);
    var r := LastIndexWhere(p, LineEnd(s));
    assert r.Some?;
    assert p(r.value);
  }

  /** What `re.match` returns is the groups of a reading of the path, and
      of the reading whose prefix `.*` is longest. */
  lemma ParseSound(s: string) returns (d: Decomposition)
    requires ParseCheckpointPath(s).Some?
    ensures WellFormed(d) && TextOf(d) == s
    ensures Groups(d) == ParseCheckpointPath(s).value
    ensures forall d' :: WellFormed(d') && TextOf(d') == s ==> |d'.prefix| <= |d.prefix|
  {
    var p := (k: nat) => MatchAt(s, k).Some?;
    var n := LineEnd(s);
    var i := LastIndexWhere(p, n).value;
    d := MatchAtSound(s, i);
    assert '\n' !in d.prefix by {
      forall x | 0 <= x < |d.prefix|
        ensures d.prefix[x] != '\n'
      {
        assert d.prefix[x] == s[x];
      }
    }
    forall d' | WellFormed(d') && TextOf(d') == s
      ensures |d'.prefix| <= |d.prefix|
    {
      MatchAtComplete(d');
      TextOfStartsWithPrefix(d');
      LineEndAfterPrefix(s, d'.prefix);
      assert p(|d'.prefix|);
    }
  }

  /** The model directory without a trailing `/`, as it appears before the
      run directory once joined. */
  function DirectoryStem(modelDir: string): string {
    if |modelDir| > 0 && modelDir[|modelDir| - 1] == '/' then modelDir[..|modelDir| - 1] else modelDir
  }

  /** How the checkpoint file Keras writes for a run reads as a match. */
  function CheckpointReading(modelDir: string, name: string, now: DateTime, epoch: nat): Decomposition
    requires Valid(now)
  {
    Decomposition(WrittenStem(DirectoryStem(modelDir), Decimal(epoch, 4)), '/', Lower(name), FormatStamp(now), '/',
                  Lower(name) + "_", Decimal(epoch, 4), "")
  }

  /** Joining a model directory with a relative name puts exactly one `/`
      between the stem and the name. */
  lemma JoinRelative(modelDir: string, b: string)
    requires |modelDir| > 0 && |b| > 0 && b[0] != '/'
    ensures JoinPath(modelDir, b) == DirectoryStem(modelDir) + "/" + b
  {
    if modelDir[|modelDir| - 1] == '/' {
      assert modelDir == modelDir[..|modelDir| - 1] + "/";
    }
  }

  /** Name characters include none of `*`, `{`, `/` and line breaks. */
  lemma NameCharsAvoid(s: string)
    requires AllNameChars(s)
    ensures '*' !in s && '{' !in s && '/' !in s && '\n' !in s
  {
    forall i | 0 <= i < |s|
      ensures s[i] != '*' && s[i] != '{' && s[i] != '/' && s[i] != '\n'
    {
      assert IsNameChar(s[i]);
    }
  }

  /** A stamp is made of name characters. */
  lemma StampIsNameChars(t: string)
    requires IsStampText(t)
    ensures AllNameChars(t)
  {
    forall i | 0 <= i < |t|
      ensures IsNameChar(t[i])
    {
      if i != 8 {
        assert IsDigit(t[i]);
      }
    }
  }

  /** The template step: `*epoch*` becomes the Keras field, and text
      without `*` before it is copied unchanged. */
  lemma TemplateText(x: string)
    requires '*' !in x
    ensures ReplaceAll(x + (EpochPlaceholder + FileSuffix), EpochPlaceholder, EpochField)
            == x + (EpochField + FileSuffix)
  {
    ReplaceAllSkips(x, EpochPlaceholder + FileSuffix, EpochPlaceholder, EpochField);
    ReplaceAllAtFront(FileSuffix, EpochPlaceholder, EpochField);
  }

  /** The Keras step: the field becomes the epoch digits, and text without
      `{` is copied unchanged. */
  lemma FillText(x: string, digits: string)
    requires '{' !in x
    ensures ReplaceAll(x + (EpochField + FileSuffix), EpochField, digits) == x + (digits + FileSuffix)
  {
    ReplaceAllSkips(x, EpochField + FileSuffix, EpochField, digits);
    ReplaceAllAtFront(FileSuffix, EpochField, digits);
  }

  /** The stem of a directory holds no character the directory does not. */
  lemma StemAvoids(modelDir: string, c: char)
    requires c !in modelDir
    ensures c !in DirectoryStem(modelDir)
  {
    if |modelDir| > 0 && modelDir[|modelDir| - 1] == '/' {
      assert modelDir == DirectoryStem(modelDir) + "/";
    }
  }

  /** Everything of a run's checkpoint path before the epoch digits. */
  function RunStem(stem: string, lname: string, stamp: string): string {
    (stem + "/" + (lname + stamp)) + "/" + (FilePrefix + lname + "_")
  }

  /** The reading of a checkpoint path is the run stem, the digits and the suffix. */
  lemma ReadingText(stem: string, lname: string, stamp: string, digits: string)
    ensures TextOf(Decomposition(stem, '/', lname, stamp, '/', lname + "_", digits, ""))
            == RunStem(stem, lname, stamp) + (digits + FileSuffix)
  {
  }

  /** The two joins of `set_log_dir` put the run stem before the placeholder. */
  lemma JoinedTemplate(modelDir: string, lname: string, stamp: string)
    requires |modelDir| > 0 && |lname| > 0 && IsNameChar(lname[0]) && |stamp| > 0 && stamp[|stamp| - 1] != '/'
    ensures JoinPath(JoinPath(modelDir, lname + stamp), FileNamePattern(lname))
            == RunStem(DirectoryStem(modelDir), lname, stamp) + (EpochPlaceholder + FileSuffix)
  {
    JoinRelative(modelDir, lname + stamp);
    var logDir := DirectoryStem(modelDir) + "/" + (lname + stamp);
    assert logDir[|logDir| - 1] == stamp[|stamp| - 1];
    var p := FilePrefix + lname + "_";
    assert FileNamePattern(lname)[0] == 'm';
    assert JoinPath(logDir, FileNamePattern(lname)) == (logDir + "/") + (p + (EpochPlaceholder + FileSuffix));
  }

  /** A run's checkpoint path after the model directory and its `/`. */
  function RunTail(lname: string, stamp: string): string {
    (lname + stamp) + "/" + (FilePrefix + lname + "_")
  }

  /** The run stem is the directory stem, a `/`, and the run's tail. */
  lemma StemSplit(stem: string, lname: string, stamp: string, x: string)
    ensures RunStem(stem, lname, stamp) + x == stem + ("/" + (RunTail(lname, stamp) + x))
  {
  }

  /** The tail of a run holds no `*` and no `{`. */
  lemma RunTailAvoids(lname: string, stamp: string)
    requires AllNameChars(lname) && IsStampText(stamp)
    ensures '*' !in RunTail(lname, stamp) && '{' !in RunTail(lname, stamp)
  {
    StampIsNameChars(stamp);
    NameCharsAvoid(lname);
    NameCharsAvoid(stamp);
  }

  /** What the two substitutions make of the model directory: an `*epoch*`
      in it becomes a field as well, and is filled with the epoch too. */
  function WrittenStem(stem: string, digits: string): (r: string)
    ensures '*' !in stem && '{' !in stem ==> r == stem
  {
    ReplaceAll(ReplaceAll(stem, EpochPlaceholder, EpochField), EpochField, digits)
  }

  /** Both substitutions over a run's path: the directory part and the file
      part are rewritten separately, because no occurrence of either pattern
      can straddle the `/` between them. */
  lemma FilledText(stem: string, lname: string, stamp: string, digits: string)
    requires AllNameChars(lname) && IsStampText(stamp)
    ensures ReplaceAll(ReplaceAll(RunStem(stem, lname, stamp) + (EpochPlaceholder + FileSuffix),
                                  EpochPlaceholder, EpochField),
                       EpochField, digits)
            == RunStem(WrittenStem(stem, digits), lname, stamp) + (digits + FileSuffix)
  {
    var tail := RunTail(lname, stamp);
    var s1 := ReplaceAll(stem, EpochPlaceholder, EpochField);
    RunTailAvoids(lname, stamp);
    StemSplit(stem, lname, stamp, EpochPlaceholder + FileSuffix);
    ReplaceAllSplit(stem, '/', tail + (EpochPlaceholder + FileSuffix), EpochPlaceholder, EpochField);
    TemplateText(tail);
    ReplaceAllSplit(s1, '/', tail + (EpochField + FileSuffix), EpochField, digits);
    FillText(tail, digits);
    StemSplit(WrittenStem(stem, digits), lname, stamp, digits + FileSuffix);
  }

  /** Both substitutions over plain strings: the name and stamp pieces of
      a run under any non-empty model directory. */
  lemma AssembledText(modelDir: string, lname: string, stamp: string, digits: string)
    requires |modelDir| > 0
    requires |lname| > 0 && AllNameChars(lname) && IsStampText(stamp)
    ensures ReplaceAll(ReplaceAll(JoinPath(JoinPath(modelDir, lname + stamp), FileNamePattern(lname)),
                                  EpochPlaceholder, EpochField),
                       EpochField, digits)
            == TextOf(Decomposition(WrittenStem(DirectoryStem(modelDir), digits), '/', lname, stamp, '/',
                                    lname + "_", digits, ""))
  {
    assert IsNameChar(lname[0]) && IsDigit(stamp[12]);
    JoinedTemplate(modelDir, lname, stamp);
    FilledText(DirectoryStem(modelDir), lname, stamp, digits);
    ReadingText(WrittenStem(DirectoryStem(modelDir), digits), lname, stamp, digits);
  }

  /** The checkpoint file of a run. Keras's `str.format` reads any `{` or
      `}` of the path, so the model directory holds neither; a `*epoch*`
      in it is filled like the file's own, and a directory without `*` is
      written verbatim. */
  lemma CheckpointFileText(modelDir: string, name: string, now: DateTime, epoch: nat)
    requires |modelDir| > 0 && '{' !in modelDir && '}' !in modelDir
    requires |name| > 0 && AllNameChars(name)
    requires Valid(now)
    ensures FillEpoch(CheckpointTemplate(LogDirFor(modelDir, name, now), name), epoch)
            == TextOf(CheckpointReading(modelDir, name, now, epoch))
    ensures '*' !in modelDir ==> CheckpointReading(modelDir, name, now, epoch).prefix == DirectoryStem(modelDir)
  {
    LowerKeepsNameChars(name);
    AssembledText(modelDir, Lower(name), FormatStamp(now), Decimal(epoch, 4));
    if '*' !in modelDir {
      StemVerbatim(modelDir, Decimal(epoch, 4));
    }
  }

  /** The substitutions leave a directory without `*` and `{` alone. */
  lemma StemVerbatim(modelDir: string, digits: string)
    requires '*' !in modelDir && '{' !in modelDir
    ensures WrittenStem(DirectoryStem(modelDir), digits) == DirectoryStem(modelDir)
  {
    StemAvoids(modelDir, '*');
    StemAvoids(modelDir, '{');
  }

  predicate SeparatorFree(s: string) {
    forall k :: 0 <= k < |s| ==> !IsSeparator(s[k])
  }

  lemma SeparatorFreeConcat(a: string, b: string)
    requires SeparatorFree(a) && SeparatorFree(b)
    ensures SeparatorFree(a + b)
  {
    forall k | 0 <= k < |a + b|
      ensures !IsSeparator((a + b)[k])
    {
      if k >= |a| {
        assert (a + b)[k] == b[k - |a|];
      }
    }
  }

  lemma NameCharsSeparatorFree(s: string)
    requires AllNameChars(s)
    ensures SeparatorFree(s)
  {
    forall k | 0 <= k < |s|
      ensures !IsSeparator(s[k])
    {
      assert IsNameChar(s[k]);
    }
  }

  /** The file part of a reading holds no separator when its rest holds none. */
  lemma FileTextSeparatorFree(d: Decomposition)
    requires TailWellFormed(d) && SeparatorFree(d.rest)
    ensures SeparatorFree(FileText(d))
  {
    NameCharsSeparatorFree(FilePrefix);
    NameCharsSeparatorFree(d.fileName);
    assert SeparatorFree(d.epochDigits) by {
      forall k | 0 <= k < |d.epochDigits|
        ensures !IsSeparator(d.epochDigits[k])
      {
        assert IsDigit(d.epochDigits[k]);
      }
    }
    assert SeparatorFree(FileSuffix);
    SeparatorFreeConcat(d.fileName, d.epochDigits);
    SeparatorFreeConcat(FileSuffix, d.rest);
    SeparatorFreeConcat(d.fileName + d.epochDigits, FileSuffix + d.rest);
    SeparatorFreeConcat(FilePrefix, (d.fileName + d.epochDigits) + (FileSuffix + d.rest));
  }

  /** After the first separator, a reading whose rest holds no separator
      has exactly one more: the one before the file name. */
  lemma OneSeparatorAfterPrefix(d: Decomposition)
    requires TailWellFormed(d) && SeparatorFree(d.rest)
    ensures forall k :: |d.prefix| < k < |TextOf(d)| && IsSeparator(TextOf(d)[k]) ==> k == DirectoryEnd(d)
  {
    var s := TextOf(d);
    var head := d.runName + d.stamp;
    NameCharsSeparatorFree(d.runName);
    StampIsNameChars(d.stamp);
    NameCharsSeparatorFree(d.stamp);
    SeparatorFreeConcat(d.runName, d.stamp);
    FileTextSeparatorFree(d);
    forall k | |d.prefix| < k < |s| && IsSeparator(s[k])
      ensures k == DirectoryEnd(d)
    {
      var m := k - |d.prefix| - 1;
      assert s[k] == DirectoryText(d)[m];
    }
  }

  /** Where a reading's two separators stand in its text. */
  lemma SeparatorsOf(d: Decomposition)
    ensures |d.prefix| < DirectoryEnd(d) < |TextOf(d)|
    ensures TextOf(d)[|d.prefix|] == d.sep1
    ensures TextOf(d)[DirectoryEnd(d)] == d.sep2
  {
    var t := DirectoryText(d);
    assert t[|d.runName| + |d.stamp|] == d.sep2;
    assert TextOf(d)[DirectoryEnd(d)] == t[|d.runName| + |d.stamp|];
  }

  /** A reading with no separator after its first one but the second is the
      only reading `re.match` can pick. */
  lemma ParseUnique(d: Decomposition)
    requires WellFormed(d)
    requires forall k :: |d.prefix| < k < |TextOf(d)| && IsSeparator(TextOf(d)[k]) ==> k == DirectoryEnd(d)
    ensures ParseCheckpointPath(TextOf(d)) == Some(Groups(d))
  {
    var s := TextOf(d);
    ParseComplete(d);
    var e := ParseSound(s);
    assert |d.prefix| <= |e.prefix|;
    if |e.prefix| > |d.prefix| {
      SeparatorsOf(e);
      assert false;
    }
    MatchAtComplete(d);
    MatchAtComplete(e);
  }

  lemma DigitsAvoidLineBreak(s: string)
    requires AllDigits(s)
    ensures '\n' !in s
  {
    forall k | 0 <= k < |s|
      ensures s[k] != '\n'
    {
      assert IsDigit(s[k]);
    }
  }

  /** The checkpoint reading of a run is well formed. */
  lemma ReadingWellFormed(modelDir: string, name: string, now: DateTime, epoch: nat)
    requires '\n' !in modelDir
    requires |name| > 0 && AllNameChars(name)
    requires Valid(now) && epoch < 10000
    ensures WellFormed(CheckpointReading(modelDir, name, now, epoch))
    ensures SeparatorFree(CheckpointReading(modelDir, name, now, epoch).rest)
  {
    var lname := Lower(name);
    LowerKeepsNameChars(name);
    StemAvoids(modelDir, '\n');
    DigitsAvoidLineBreak(Decimal(epoch, 4));
    ReplaceAllAvoids(DirectoryStem(modelDir), '\n', EpochPlaceholder, EpochField);
    ReplaceAllAvoids(ReplaceAll(DirectoryStem(modelDir), EpochPlaceholder, EpochField), '\n', EpochField,
                     Decimal(epoch, 4));
    assert AllNameChars(lname + "_") by {
      forall k | 0 <= k < |lname + "_"|
        ensures IsNameChar((lname + "_")[k])
      {
        if k < |lname| {
          assert (lname + "_")[k] == lname[k];
        }
      }
    }
    assert Pow10(4) == 10000;
    DecimalWidth(epoch, 4);
  }

  /** Reading back the file Keras writes for a run gives the run's start
      time (to the minute) and the epoch, for epochs below 10000. */
  lemma CheckpointRoundTrip(modelDir: string, name: string, now: DateTime, epoch: nat)
    requires |modelDir| > 0 && '{' !in modelDir && '}' !in modelDir && '\n' !in modelDir
    requires |name| > 0 && AllNameChars(name)
    requires Valid(now) && epoch < 10000
    ensures ParseCheckpointPath(FillEpoch(CheckpointTemplate(LogDirFor(modelDir, name, now), name), epoch))
            == Some(CheckpointMatch(StampOf(now), epoch))
  {
    var d := CheckpointReading(modelDir, name, now, epoch);
    CheckpointFileText(modelDir, name, now, epoch);
    ReadingWellFormed(modelDir, name, now, epoch);
    OneSeparatorAfterPrefix(d);
    ParseUnique(d);
    StampRoundTrip(now);
    DecimalRoundTrip(epoch, 4);
  }
}

=== FILE: checkpoint_search.dfy ===
/**
 * `find_last_checkpoint`: the run directory of a model and the checkpoint
 * file in it that sort last, comparing names as Python compares strings;
 * sort order, not time, decides. The directory walk is an input: a
 * snapshot mapping each path that `os.walk` can enter to the names of its
 * sub-directories and files.
 */
module CheckpointSearch {
  import opened Wrappers
  import opened Text
  import opened CheckpointNames

  /** The first item `next(os.walk(path))` yields: sub-directory and file names. */
  datatype Listing = Listing(dirs: seq<string>, files: seq<string>)

  type FileSystem = map<string, Listing>

  datatype SearchError =
    | NoSuchDirectory(path: string)   // `next` on an empty walk raises StopIteration
    | NoRunDirectory                  // `directories[-1]` on an empty list
    | NoCheckpointFile(dir: string)   // `checkpoints[-1]` on an empty list

  /** What `filter` keeps of a listing before it is sorted. */
  const CheckpointFilePrefix: string := "mask_rcnn"

  /** `filter(lambda f: f.startswith(prefix), xs)`, in listing order. */
  function Filter(xs: seq<string>, prefix: string): (r: seq<string>)
    ensures |r| <= |xs|
    ensures forall x :: x in r <==> x in xs && StartsWith(x, prefix)
  {
    if |xs| == 0 then []
    else if StartsWith(xs[0], prefix) then [xs[0]] + Filter(xs[1..], prefix)
    else Filter(xs[1..], prefix)
  }

  /** `sorted(xs)[-1]`: the name every other name sorts before. */
  function Greatest(xs: seq<string>): (r: string)
    requires |xs| > 0
    ensures r in xs
    ensures forall x :: x in xs ==> LexLe(x, r)
  {
    if |xs| == 1 then
      LexLeReflexive(xs[0]);
      xs[0]
    else
      var g := Greatest(xs[1..]);
      assert forall x :: x in xs ==> x == xs[0] || x in xs[1..];
      if LexLe(xs[0], g) then
        g
      else
        LexLeTotal(xs[0], g);
        LexLeReflexive(xs[0]);
        assert forall x :: x in xs[1..] ==> LexLe(x, xs[0]) by {
          forall x | x in xs[1..]
            ensures LexLe(x, xs[0])
          {
            LexLeTransitive(x, g, xs[0]);
          }
        }
        xs[0]
  }

  /** A name that every listed name sorts before is the one `sorted` puts last. */
  lemma GreatestIsUnique(xs: seq<string>, r: string)
    requires r in xs && forall x :: x in xs ==> LexLe(x, r)
    ensures Greatest(xs) == r
  {
    var g := Greatest(xs);
    LexLeAntisymmetric(g, r);
  }

  /** The listing order of the walk does not matter. */
  lemma GreatestIgnoresOrder(xs: seq<string>, ys: seq<string>)
    requires |xs| > 0
    requires forall x :: x in xs <==> x in ys
    ensures |ys| > 0 && Greatest(xs) == Greatest(ys)
  {
    assert Greatest(xs) in ys;
    GreatestIsUnique(ys, Greatest(xs));
  }

  /** `x` is the listed name with the given prefix that sorts last. */
  predicate IsLast(xs: seq<string>, prefix: string, x: string) {
    && x in xs && StartsWith(x, prefix)
    && forall y :: y in xs && StartsWith(y, prefix) ==> LexLe(y, x)
  }

  /** The last of the filtered names is the last name with the prefix. */
  lemma LastOfFilter(xs: seq<string>, prefix: string)
    requires |Filter(xs, prefix)| > 0
    ensures IsLast(xs, prefix, Greatest(Filter(xs, prefix)))
  {
  }

  /** `find_last_checkpoint`, with the lower-cased configuration name as key. */
  function FindLastCheckpoint(fs: FileSystem, modelDir: string, name: string): (r: Result<string, SearchError>)
    ensures modelDir !in fs ==> r == Failure(NoSuchDirectory(modelDir))
    ensures modelDir in fs ==>
      (r == Failure(NoRunDirectory) <==> forall d :: d in fs[modelDir].dirs ==> !StartsWith(d, Lower(name)))
    ensures r.Success? ==>
      exists d, f ::
        && modelDir in fs && IsLast(fs[modelDir].dirs, Lower(name), d)
        && JoinPath(modelDir, d) in fs && IsLast(fs[JoinPath(modelDir, d)].files, CheckpointFilePrefix, f)
        && r.value == JoinPath(JoinPath(modelDir, d), f)
  {
    if modelDir !in fs then Failure(NoSuchDirectory(modelDir))
    else
      var directories := Filter(fs[modelDir].dirs, Lower(name));
      if |directories| == 0 then Failure(NoRunDirectory)
      else
        var dirName := JoinPath(modelDir, Greatest(directories));
        if dirName !in fs then Failure(NoSuchDirectory(dirName))
        else
          var checkpoints := Filter(fs[dirName].files, CheckpointFilePrefix);
          if |checkpoints| == 0 then Failure(NoCheckpointFile(dirName))
          else
            LastOfFilter(fs[modelDir].dirs, Lower(name));
            LastOfFilter(fs[dirName].files, CheckpointFilePrefix);
            Success(JoinPath(dirName, Greatest(checkpoints)))
  }

  /** Given the last run directory and the last checkpoint file in it, the
      search returns exactly that file. */
  lemma FindsLastCheckpoint(fs: FileSystem, modelDir: string, name: string, d: string, f: string)
    requires modelDir in fs && IsLast(fs[modelDir].dirs, Lower(name), d)
    requires JoinPath(modelDir, d) in fs && IsLast(fs[JoinPath(modelDir, d)].files, CheckpointFilePrefix, f)
    ensures FindLastCheckpoint(fs, modelDir, name) == Success(JoinPath(JoinPath(modelDir, d), f))
  {
    var directories := Filter(fs[modelDir].dirs, Lower(name));
    GreatestIsUnique(directories, d);
    var checkpoints := Filter(fs[JoinPath(modelDir, d)].files, CheckpointFilePrefix);
    GreatestIsUnique(checkpoints, f);
  }

  /** The search does not fall back to an earlier directory: when the last run
      directory holds no checkpoint file, it fails on that directory. */
  lemma NoFallBackToEarlierDirectory(fs: FileSystem, modelDir: string, name: string, d: string)
    requires modelDir in fs && IsLast(fs[modelDir].dirs, Lower(name), d)
    requires JoinPath(modelDir, d) in fs
    requires forall f :: f in fs[JoinPath(modelDir, d)].files ==> !StartsWith(f, CheckpointFilePrefix)
    ensures FindLastCheckpoint(fs, modelDir, name) == Failure(NoCheckpointFile(JoinPath(modelDir, d)))
  {
    GreatestIsUnique(Filter(fs[modelDir].dirs, Lower(name)), d);
  }
}

=== FILE: clock.dfy ===
/**
 * Calendar values as Python's `datetime.datetime` holds them, the
 * `{:%Y%m%dT%H%M}` stamp written into log-directory names, and reading the
 * stamp's five fields back.
 */
module Clock {
  import opened Wrappers
  import opened Text

  /** A wall-clock time; microseconds are left out because no name uses them. */
  datatype DateTime = DateTime(year: int, month: int, day: int, hour: int, minute: int, second: int)

  predicate IsLeapYear(y: int) {
    y % 4 == 0 && (y % 100 != 0 || y % 400 == 0)
  }

  function DaysInMonth(year: int, month: int): int
    requires 1 <= month <= 12
  {
    if month == 2 then (if IsLeapYear(year) then 29 else 28)
    else if month == 4 || month == 6 || month == 9 || month == 11 then 30
    else 31
  }

  /** The ranges `datetime.datetime` accepts (MINYEAR 1 to MAXYEAR 9999). */
  predicate Valid(d: DateTime) {
    && 1 <= d.year <= 9999
    && 1 <= d.month <= 12
    && 1 <= d.day <= DaysInMonth(d.year, d.month)
    && 0 <= d.hour < 24
    && 0 <= d.minute < 60
    && 0 <= d.second < 60
  }

  /** The five numbers the checkpoint regex captures, before they are
      checked as a date. */
  datatype Stamp = Stamp(year: int, month: int, day: int, hour: int, minute: int)

  /** The minute-resolution part of a time. */
  function StampOf(d: DateTime): Stamp {
    Stamp(d.year, d.month, d.day, d.hour, d.minute)
  }

  /** `datetime.datetime(y, mo, d, h, mi)`: `None` stands for the
      ValueError it raises on an out-of-range field. */
  function NewDateTime(s: Stamp): (r: Option<DateTime>)
    ensures r.Some? ==> Valid(r.value) && StampOf(r.value) == s && r.value.second == 0
    ensures r.None? ==> forall d: DateTime :: StampOf(d) == s ==> !Valid(d) || d.second != 0
  {
    var d := DateTime(s.year, s.month, s.day, s.hour, s.minute, 0);
    if Valid(d) then Some(d) else None
  }

  /** The shape `\d{8}T\d{4}` of a stamp. */
  predicate IsStampText(t: string) {
    |t| == 13 && t[8] == 'T' && forall i :: 0 <= i < 13 && i != 8 ==> IsDigit(t[i])
  }

  /** `'{:%Y%m%dT%H%M}'.format(d)`, every field zero-padded. */
  function FormatStamp(d: DateTime): (t: string)
    requires Valid(d)
    ensures IsStampText(t)
  {
    DecimalWidth(d.year, 4);
    DecimalWidth(d.month, 2);
    DecimalWidth(d.day, 2);
    DecimalWidth(d.hour, 2);
    DecimalWidth(d.minute, 2);
    Decimal(d.year, 4) + Decimal(d.month, 2) + Decimal(d.day, 2) + "T" + Decimal(d.hour, 2) + Decimal(d.minute, 2)
  }

  /** The regex groups `(\d{4})(\d{2})(\d{2})T(\d{2})(\d{2})`, each read
      with `int`. */
  function ParseStamp(t: string): (r: Stamp)
    requires IsStampText(t)
    ensures 0 <= r.year < 10000 && 0 <= r.month < 100 && 0 <= r.day < 100
    ensures 0 <= r.hour < 100 && 0 <= r.minute < 100
  {
    assert AllDigits(t[0..4]) && AllDigits(t[4..6]) && AllDigits(t[6..8]);
    assert AllDigits(t[9..11]) && AllDigits(t[11..13]);
    Stamp(DigitsValue(t[0..4]), DigitsValue(t[4..6]), DigitsValue(t[6..8]),
          DigitsValue(t[9..11]), DigitsValue(t[11..13]))
  }

  /** Reading a written stamp back gives the same minute. */
  lemma StampRoundTrip(d: DateTime)
    requires Valid(d)
    ensures ParseStamp(FormatStamp(d)) == StampOf(d)
  {
    var t := FormatStamp(d);
    DecimalWidth(d.year, 4);
    DecimalWidth(d.month, 2);
    DecimalWidth(d.day, 2);
    DecimalWidth(d.hour, 2);
    DecimalWidth(d.minute, 2);
    assert t[0..4] == Decimal(d.year, 4);
    assert t[4..6] == Decimal(d.month, 2);
    assert t[6..8] == Decimal(d.day, 2);
    assert t[9..11] == Decimal(d.hour, 2);
    assert t[11..13] == Decimal(d.minute, 2);
    DecimalRoundTrip(d.year, 4);
    DecimalRoundTrip(d.month, 2);
    DecimalRoundTrip(d.day, 2);
    DecimalRoundTrip(d.hour, 2);
    DecimalRoundTrip(d.minute, 2);
  }

  /** Reading a stamp whose fields form a real date and writing that date
      back gives the same text. */
  lemma ParseStampRoundTrip(t: string)
    requires IsStampText(t) && NewDateTime(ParseStamp(t)).Some?
    ensures FormatStamp(NewDateTime(ParseStamp(t)).value) == t
  {
    var d := NewDateTime(ParseStamp(t)).value;
    assert AllDigits(t[0..4]) && AllDigits(t[4..6]) && AllDigits(t[6..8]);
    assert AllDigits(t[9..11]) && AllDigits(t[11..13]);
    DigitsRoundTrip(t[0..4]);
    DigitsRoundTrip(t[4..6]);
    DigitsRoundTrip(t[6..8]);
    DigitsRoundTrip(t[9..11]);
    DigitsRoundTrip(t[11..13]);
    StampTextParts(t);
    assert FormatStamp(d) == Decimal(d.year, 4) + Decimal(d.month, 2) + Decimal(d.day, 2) + "T"
                             + Decimal(d.hour, 2) + Decimal(d.minute, 2);
  }

  /** A stamp is its five digit fields around the `T`. */
  lemma StampTextParts(t: string)
    requires IsStampText(t)
    ensures t == t[0..4] + t[4..6] + t[6..8] + "T" + t[9..11] + t[11..13]
  {
  }

  /** The stamp depends on the minute only: times within one minute share
      a log directory. */
  lemma FormatStampIgnoresSeconds(d: DateTime, e: DateTime)
    requires Valid(d) && Valid(e) && StampOf(d) == StampOf(e)
    ensures FormatStamp(d) == FormatStamp(e)
  {
  }

  /** Distinct minutes give distinct stamps. */
  lemma FormatStampInjective(d: DateTime, e: DateTime)
    requires Valid(d) && Valid(e) && FormatStamp(d) == FormatStamp(e)
    ensures StampOf(d) == StampOf(e)
  {
    StampRoundTrip(d);
    StampRoundTrip(e);
  }
}

=== FILE: mask_rcnn.dfy ===
/**
 * The `MaskRCNN` object as bookkeeping: the mode fixed at construction,
 * the build-time image-shape check, the anchor cache, the epoch counter
 * and the log-directory and checkpoint names. The Keras network the
 * constructor wires up and the training loop are not part of this model.
 * Every operation returns the object's state afterwards together with the
 * exception it raised, if any, because `set_log_dir` changes the epoch
 * before it can raise.
 */
module MaskRcnn {
  import opened Wrappers
  import opened Text
  import opened Shapes
  import opened Clock
  import opened CheckpointNames
  import opened ModelConfig
  import opened Anchors

  datatype Mode = Training | Inference

  datatype ModelError =
    | InvalidMode                       // `assert mode in ['training', 'inference']`
    | MalformedImageShape               // `h, w = IMAGE_SHAPE[:2]` or `IMAGE_SHAPE[2]` fails
    | ImageSizeNotMultipleOf64          // the build-time `Exception`
    | AnchorShapeError(e: ShapeError)   // `compute_backbone_shapes` fails inside `get_anchors`
    | InvalidCheckpointDate             // `datetime.datetime(...)` rejects the parsed stamp
    | NotTrainingMode                   // the assert at the top of `train`
    | NotInferenceMode                  // the first assert of `detect`
    | BatchSizeMismatch                 // the second assert of `detect`

  /** The attributes of a constructed `MaskRCNN` that the bookkeeping uses. */
  datatype Model = Model(
    mode: Mode,
    config: Config,
    modelDir: string,
    anchors: AnchorCache,
    epoch: int,
    logDir: string,
    checkpointPath: string)

  /** The state after an operation and the exception it raised, if any. */
  datatype Step = Step(model: Model, raised: Option<ModelError>)

  /** The mode names the constructor accepts. */
  function ModeNamed(name: string): (r: Option<Mode>)
    ensures r == Some(Training) <==> name == "training"
    ensures r == Some(Inference) <==> name == "inference"
    ensures r.None? <==> name != "training" && name != "inference"
  {
    if name == "training" then Some(Training)
    else if name == "inference" then Some(Inference)
    else None
  }

  /** The checks `build` makes on `IMAGE_SHAPE` before wiring any layer, in
      the order it makes them: unpacking two sides, the multiple-of-64 test
      in floating point, then reading the channel count. */
  function CheckImageShape(s: seq<int>): (r: Option<ModelError>)
    ensures r.None? <==> |s| >= 3 && s[0] % 64 == 0 && s[1] % 64 == 0
    ensures r == Some(ImageSizeNotMultipleOf64) <==> |s| >= 2 && (s[0] % 64 != 0 || s[1] % 64 != 0)
  {
    SourceCheckIsDivisibility(if |s| > 0 then s[0] else 0);
    SourceCheckIsDivisibility(if |s| > 1 then s[1] else 0);
    if |s| < 2 then Some(MalformedImageShape)
    else if !PassesSourceCheck(s[0]) || !PassesSourceCheck(s[1]) then Some(ImageSizeNotMultipleOf64)
    else if |s| < 3 then Some(MalformedImageShape)
    else None
  }

  /** The two names `set_log_dir` derives from a run's start time. */
  function WithRunNames(m: Model, start: DateTime): (r: Model)
    requires Valid(start)
    ensures r.logDir == LogDirFor(m.modelDir, m.config.name, start)
    ensures r.checkpointPath == CheckpointTemplate(r.logDir, m.config.name)
    ensures r == m.(logDir := r.logDir, checkpointPath := r.checkpointPath)
  {
    var logDir := LogDirFor(m.modelDir, m.config.name, start);
    m.(logDir := logDir, checkpointPath := CheckpointTemplate(logDir, m.config.name))
  }

  /** The regex match of a `model_path` argument; `None` and the empty
      string are both falsy and skip the match. The empty string cannot
      match anyway, so the test only guards against `None`. */
  function MatchedPath(modelPath: Option<string>): (r: Option<CheckpointMatch>)
    ensures modelPath.None? ==> r.None?
    ensures modelPath.Some? ==> r == ParseCheckpointPath(modelPath.value)
  {
    match modelPath
    case None => None
    case Some(p) => if p == "" then None else ParseCheckpointPath(p)
  }

  /** The log directory and checkpoint template belong to a run started at `start`. */
  predicate NamesRun(m: Model, start: DateTime) {
    && Valid(start)
    && m.logDir == LogDirFor(m.modelDir, m.config.name, start)
    && m.checkpointPath == CheckpointTemplate(m.logDir, m.config.name)
  }

  /** `set_log_dir(model_path)`, with the clock reading `now` as an input. */
  function SetLogDir(m: Model, modelPath: Option<string>, now: DateTime): (r: Step)
    requires Valid(now)
    ensures r.model == m.(epoch := r.model.epoch, logDir := r.model.logDir, checkpointPath := r.model.checkpointPath)
    ensures MatchedPath(modelPath).None? ==> r.raised.None? && r.model.epoch == 0 && NamesRun(r.model, now)
    ensures MatchedPath(modelPath).Some? ==>
      var g := MatchedPath(modelPath).value;
      if r.raised.None? then
        r.model.epoch == g.epoch && exists t :: NamesRun(r.model, t) && StampOf(t) == g.stamp
      else
        r.raised == Some(InvalidCheckpointDate) && r.model == m.(epoch := 0)
        && forall t :: Valid(t) ==> StampOf(t) != g.stamp
  {
    var reset := m.(epoch := 0);
    match MatchedPath(modelPath)
    case None => Step(WithRunNames(reset, now), None)
    case Some(g) =>
      match NewDateTime(g.stamp)
      case None =>
        assert forall t :: Valid(t) ==> StampOf(t) != g.stamp by {
          forall t | Valid(t)
            ensures StampOf(t) != g.stamp
          {
            var t0 := t.(second := 0);
            assert Valid(t0) && StampOf(t0) == StampOf(t);
          }
        }
        Step(reset, Some(InvalidCheckpointDate))
      case Some(start) =>
        // The file's epoch is 1-based and Keras counts from 0: the two
        // adjustments cancel.
        Step(WithRunNames(reset.(epoch := g.epoch - 1 + 1), start), None)
  }

  /** `MaskRCNN(mode, config, model_dir)`: the mode check, `set_log_dir()`,
      then `build`, which checks the image shape and, in training mode,
      fills the anchor cache for `IMAGE_SHAPE`. */
  function Construct(modeName: string, cfg: Config, modelDir: string, now: DateTime, src: AnchorSource)
    : (r: Result<Model, ModelError>)
    requires Valid(now)
    ensures ModeNamed(modeName).None? ==> r == Failure(InvalidMode)
    ensures r.Success? <==>
      && (modeName == "training" || modeName == "inference")
      && |cfg.imageShape| >= 3 && cfg.imageShape[0] % 64 == 0 && cfg.imageShape[1] % 64 == 0
      && (modeName == "training" ==> 0 !in cfg.backboneStrides)
    ensures r.Success? ==>
      && Some(r.value.mode) == ModeNamed(modeName)
      && r.value.config == cfg && r.value.modelDir == modelDir
      && r.value.epoch == 0
      && NamesRun(r.value, now)
      && Coherent(r.value.anchors, cfg, src)
      && (r.value.mode == Inference ==> r.value.anchors == EmptyCache)
      && (r.value.mode == Training ==> r.value.anchors.entries.Keys == {cfg.imageShape})
  {
    match ModeNamed(modeName)
    case None => Failure(InvalidMode)
    case Some(mode) =>
      var initial := WithRunNames(Model(mode, cfg, modelDir, EmptyCache, 0, "", ""), now);
      match CheckImageShape(cfg.imageShape)
      case Some(e) => Failure(e)
      case None =>
        if mode == Inference then Success(initial)
        else
          match GetAnchors(EmptyCache, cfg, src, cfg.imageShape)
          case Failure(e) => Failure(AnchorShapeError(e))
          case Success((cache, _)) => Success(initial.(anchors := cache))
  }

  /** `train(...)`: the mode assert, then (after fitting, which is not
      modelled) `epoch = max(epoch, epochs)`. */
  function Train(m: Model, epochs: int): (r: Step)
    ensures r.raised.Some? <==> m.mode != Training
    ensures r.raised.Some? ==> r == Step(m, Some(NotTrainingMode))
    ensures r.raised.None? ==>
      && r.model == m.(epoch := r.model.epoch)
      && r.model.epoch >= m.epoch && r.model.epoch >= epochs
      && (r.model.epoch == m.epoch || r.model.epoch == epochs)
  {
    if m.mode != Training then Step(m, Some(NotTrainingMode))
    else Step(m.(epoch := if m.epoch >= epochs then m.epoch else epochs), None)
  }

  /** `detect(images)`: two asserts and nothing else; `imageCount` is `len(images)`. */
  function Detect(m: Model, imageCount: int): (r: Step)
    ensures r.model == m
    ensures r.raised.None? <==> m.mode == Inference && imageCount == m.config.batchSize
    ensures m.mode != Inference ==> r.raised == Some(NotInferenceMode)
    ensures m.mode == Inference && imageCount != m.config.batchSize ==> r.raised == Some(BatchSizeMismatch)
  {
    if m.mode != Inference then Step(m, Some(NotInferenceMode))
    else if imageCount != m.config.batchSize then Step(m, Some(BatchSizeMismatch))
    else Step(m, None)
  }

  /** `get_anchors(image_shape)` on the object: only the cache changes. */
  function ModelAnchors(m: Model, src: AnchorSource, imageShape: seq<int>): (r: Step)
    ensures r.model == m.(anchors := r.model.anchors)
    ensures r.raised.Some? <==> BackboneShapes(imageShape, m.config.backboneStrides).Failure?
    ensures r.raised.None? ==> r.model.anchors == GetAnchors(m.anchors, m.config, src, imageShape).value.0
    ensures r.raised.Some? ==> r.model == m
  {
    match GetAnchors(m.anchors, m.config, src, imageShape)
    case Failure(e) => Step(m, Some(AnchorShapeError(e)))
    case Success((cache, _)) => Step(m.(anchors := cache), None)
  }

  /** Names derived from two readings of the same minute are the same. */
  lemma RunNamesOfSameMinute(m: Model, start: DateTime, t: DateTime)
    requires NamesRun(m, start) && Valid(t) && StampOf(t) == StampOf(start)
    ensures WithRunNames(m, t) == m
  {
    FormatStampIgnoresSeconds(t, start);
  }

  /** Resuming from the checkpoint a run wrote: `load_weights(path)` calls
      `set_log_dir(path)`, which recovers the epoch and the run's start
      minute, hence the very same log directory and checkpoint template. */
  lemma ResumeRoundTrip(m: Model, start: DateTime, later: DateTime, k: nat)
    requires NamesRun(m, start) && Valid(later)
    requires |m.modelDir| > 0 && '{' !in m.modelDir && '}' !in m.modelDir
    requires '\n' !in m.modelDir
    requires |m.config.name| > 0 && AllNameChars(m.config.name)
    requires k < 10000
    ensures SetLogDir(m, Some(FillEpoch(m.checkpointPath, k)), later) == Step(m.(epoch := k), None)
  {
    CheckpointPathMatches(m, start, k);
    ResumeFromMatch(m, start, later, Some(FillEpoch(m.checkpointPath, k)), k);
  }

  /** The checkpoint file a run writes matches with the run's minute and the epoch. */
  lemma CheckpointPathMatches(m: Model, start: DateTime, k: nat)
    requires NamesRun(m, start)
    requires |m.modelDir| > 0 && '{' !in m.modelDir && '}' !in m.modelDir
    requires '\n' !in m.modelDir
    requires |m.config.name| > 0 && AllNameChars(m.config.name)
    requires k < 10000
    ensures MatchedPath(Some(FillEpoch(m.checkpointPath, k))) == Some(CheckpointMatch(StampOf(start), k))
  {
    CheckpointRoundTrip(m.modelDir, m.config.name, start, k);
  }

  /** `set_log_dir` on a path that matches with a run's own minute restores
      that run's names and takes the epoch from the path. */
  lemma ResumeFromMatch(m: Model, start: DateTime, later: DateTime, path: Option<string>, k: nat)
    requires NamesRun(m, start) && Valid(later)
    requires MatchedPath(path) == Some(CheckpointMatch(StampOf(start), k))
    ensures SetLogDir(m, path, later) == Step(m.(epoch := k), None)
  {
    var t := NewDateTime(StampOf(start)).value;
    RunNamesOfSameMinute(m.(epoch := k), start, t);
  }

  /** The operations a caller can apply to a constructed model. */
  datatype Op =
    | SetLogDirOp(modelPath: Option<string>, now: DateTime)
    | TrainOp(epochs: int)
    | DetectOp(imageCount: int)
    | AnchorsOp(imageShape: seq<int>)

  /** Every clock reading the operations take is a real time. */
  predicate ValidOps(ops: seq<Op>) {
    forall i :: 0 <= i < |ops| && ops[i].SetLogDirOp? ==> Valid(ops[i].now)
  }

  function Apply(m: Model, op: Op, src: AnchorSource): Step
    requires op.SetLogDirOp? ==> Valid(op.now)
  {
    match op
    case SetLogDirOp(p, now) => SetLogDir(m, p, now)
    case TrainOp(e) => Train(m, e)
    case DetectOp(n) => Detect(m, n)
    case AnchorsOp(s) => ModelAnchors(m, src, s)
  }

  /** The state after a session of operations; a raised exception is
      caught by the caller and the session goes on with the state it left. */
  function Run(m: Model, ops: seq<Op>, src: AnchorSource): Model
    requires ValidOps(ops)
    decreases |ops|
  {
    if |ops| == 0 then m
    else Run(Apply(m, ops[0], src).model, ops[1..], src)
  }

  /** What the rest of a session needs of the model: a coherent cache and
      names that belong to some run. */
  ghost predicate Consistent(m: Model, src: AnchorSource) {
    Coherent(m.anchors, m.config, src) && exists t :: NamesRun(m, t)
  }

  /** What one operation keeps: the mode, the configuration, the model
      directory, consistency, and every cached entry. */
  ghost predicate Keeps(m: Model, m1: Model, src: AnchorSource) {
    && m1.mode == m.mode && m1.config == m.config && m1.modelDir == m.modelDir
    && Consistent(m1, src)
    && m.anchors.entries.Keys <= m1.anchors.entries.Keys
    && forall k :: k in m.anchors.entries ==> m1.anchors.entries[k] == m.anchors.entries[k]
  }

  lemma SetLogDirKeeps(m: Model, modelPath: Option<string>, now: DateTime, src: AnchorSource)
    requires Valid(now) && Consistent(m, src)
    ensures Keeps(m, SetLogDir(m, modelPath, now).model, src)
  {
    var r := SetLogDir(m, modelPath, now);
    if r.raised.Some? && MatchedPath(modelPath).Some? {
      var t :| NamesRun(m, t);
      assert NamesRun(r.model, t);
    } else if MatchedPath(modelPath).Some? {
      var t :| NamesRun(r.model, t);
    } else {
      assert NamesRun(r.model, now);
    }
  }

  lemma AnchorsKeep(m: Model, imageShape: seq<int>, src: AnchorSource)
    requires Consistent(m, src)
    ensures Keeps(m, ModelAnchors(m, src, imageShape).model, src)
  {
    var m1 := ModelAnchors(m, src, imageShape).model;
    CacheIsTransparent(m.anchors, m.config, src, imageShape);
    if GetAnchors(m.anchors, m.config, src, imageShape).Success? {
      GetAnchorsKeepsEntries(m.anchors, m.config, src, imageShape);
    }
    var t :| NamesRun(m, t);
    assert NamesRun(m1, t);
  }

  lemma TrainKeeps(m: Model, epochs: int, src: AnchorSource)
    requires Consistent(m, src)
    ensures Keeps(m, Train(m, epochs).model, src)
  {
    var t :| NamesRun(m, t);
    assert NamesRun(Train(m, epochs).model, t);
  }

  /** One operation keeps the mode, the configuration and the model
      directory, keeps the model consistent, and only adds cache entries. */
  lemma ApplyKeeps(m: Model, op: Op, src: AnchorSource)
    requires op.SetLogDirOp? ==> Valid(op.now)
    requires Consistent(m, src)
    ensures Keeps(m, Apply(m, op, src).model, src)
  {
    match op
    case AnchorsOp(s) => AnchorsKeep(m, s, src);
    case SetLogDirOp(p, now) => SetLogDirKeeps(m, p, now, src);
    case TrainOp(e) => TrainKeeps(m, e, src);
    case DetectOp(n) =>
  }

  /** Over a whole session the mode never changes, the model stays
      consistent, and cached anchors are never dropped or altered. */
  lemma {:induction false} RunKeeps(m: Model, ops: seq<Op>, src: AnchorSource)
    requires ValidOps(ops) && Consistent(m, src)
    ensures Keeps(m, Run(m, ops, src), src)
    decreases |ops|
  {
    if |ops| > 0 {
      assert ops[0].SetLogDirOp? ==> Valid(ops[0].now);
      ApplyKeeps(m, ops[0], src);
      assert ValidOps(ops[1..]) by {
        forall i | 0 <= i < |ops[1..]| && ops[1..][i].SetLogDirOp?
          ensures Valid(ops[1..][i].now)
        {
          assert ops[1..][i] == ops[i + 1];
        }
      }
      RunKeeps(Apply(m, ops[0], src).model, ops[1..], src);
    }
  }

  /** A session without `set_log_dir` never lowers the epoch. */
  lemma {:induction false} EpochOnlyResetByLogDir(m: Model, ops: seq<Op>, src: AnchorSource)
    requires ValidOps(ops)
    requires forall i :: 0 <= i < |ops| ==> !ops[i].SetLogDirOp?
    ensures Run(m, ops, src).epoch >= m.epoch
    decreases |ops|
  {
    if |ops| > 0 {
      assert ValidOps(ops[1..]) && forall i :: 0 <= i < |ops[1..]| ==> ops[1..][i] == ops[i + 1];
      EpochOnlyResetByLogDir(Apply(m, ops[0], src).model, ops[1..], src);
    }
  }

  /** The largest of a starting epoch and a list of requested epochs. */
  function MaxEpoch(e: int, requested: seq<int>): (r: int)
    ensures r >= e && forall i :: 0 <= i < |requested| ==> r >= requested[i]
    ensures r == e || exists i :: 0 <= i < |requested| && r == requested[i]
    decreases |requested|
  {
    if |requested| == 0 then e
    else
      var rest := MaxEpoch(if e >= requested[0] then e else requested[0], requested[1..]);
      assert forall i :: 0 < i < |requested| ==> requested[i] == requested[1..][i - 1];
      rest
  }

  function TrainOps(requested: seq<int>): (ops: seq<Op>)
    ensures |ops| == |requested|
    ensures forall i :: 0 <= i < |ops| ==> ops[i] == TrainOp(requested[i])
  {
    seq(|requested|, i requires 0 <= i < |requested| => TrainOp(requested[i]))
  }

  /** A run of `train` calls in training mode leaves the epoch at the
      largest of the starting epoch and every requested count. */
  lemma {:induction false} TrainingSessionEpoch(m: Model, requested: seq<int>, src: AnchorSource)
    requires m.mode == Training
    ensures ValidOps(TrainOps(requested))
    ensures Run(m, TrainOps(requested), src).epoch == MaxEpoch(m.epoch, requested)
    ensures Run(m, TrainOps(requested), src).mode == Training
    decreases |requested|
  {
    if |requested| > 0 {
      var ops := TrainOps(requested);
      assert ops[1..] == TrainOps(requested[1..]);
      TrainingSessionEpoch(Train(m, requested[0]).model, requested[1..], src);
    }
  }

  /** In inference mode `train` raises and the epoch stays where it was. */
  lemma {:induction false} InferenceIgnoresTraining(m: Model, requested: seq<int>, src: AnchorSource)
    requires m.mode == Inference
    ensures ValidOps(TrainOps(requested))
    ensures Run(m, TrainOps(requested), src) == m
    decreases |requested|
  {
    if |requested| > 0 {
      var ops := TrainOps(requested);
      assert ops[1..] == TrainOps(requested[1..]);
      InferenceIgnoresTraining(m, requested[1..], src);
    }
  }
}

=== FILE: model_config.dfy ===
/**
 * The configuration fields the bookkeeping reads. The configuration class
 * itself lives outside `model.py`; only these attributes are consulted.
 */
module ModelConfig {

  datatype Config = Config(
    name: string,                // NAME
    imageShape: seq<int>,        // IMAGE_SHAPE
    batchSize: int,              // BATCH_SIZE
    backboneStrides: seq<int>,   // BACKBONE_STRIDES
    anchorScales: seq<int>,      // RPN_ANCHOR_SCALES
    anchorRatios: seq<real>,     // RPN_ANCHOR_RATIOS
    anchorStride: int)           // RPN_ANCHOR_STRIDE
}

=== FILE: shapes.dfy ===
/**
 * Shape arithmetic of the detection model: the build-time test that the
 * image is a multiple of 64 on both sides, and the per-stride feature-map
 * sizes `ceil(dim / stride)`.
 */
module Shapes {
  import opened Wrappers

  /** `2**6`: five halvings in the backbone plus the extra pooled level. */
  const Granularity: int := 64

  /** Python's `int(x)` on a float: truncation toward zero. */
  function Truncate(x: real): int {
    if x >= 0.0 then x.Floor else -((-x).Floor)
  }

  /** One dimension of the test in `build`: `h/2**6 == int(h/2**6)`, with
      true division (exact for the sizes an image can have). */
  predicate PassesSourceCheck(h: int) {
    var q := h as real / Granularity as real;
    q == Truncate(q) as real
  }

  /** The floating-point test accepts exactly the multiples of 64. */
  lemma SourceCheckIsDivisibility(h: int)
    ensures PassesSourceCheck(h) <==> h % Granularity == 0
  {
    var q := h as real / 64.0;
    var a := h / 64;
    var b := h % 64;
    assert h == 64 * a + b;
    assert q == a as real + b as real / 64.0;
    if b == 0 {
      assert q == a as real;
      assert q.Floor == a;
      assert (-q).Floor == -a;
      assert Truncate(q) == a;
    }
  }

  /** `int(np.ceil(a / b))` for a non-zero divisor. */
  function CeilDiv(a: int, b: int): (r: int)
    requires b != 0
    ensures IsCeilOf(r, a, b)
  {
    if b > 0 then
      var q := (-a) / b;
      assert -a == b * q + (-a) % b;
      -q
    else
      var q := a / (-b);
      assert a == (-b) * q + a % (-b);
      -q
  }

  /** `r` is the ceiling of the rational `a / b`, stated without division:
      `r - 1 < a / b <= r`, multiplied through by `b`. */
  predicate IsCeilOf(r: int, a: int, b: int) {
    && b != 0
    && (b > 0 ==> (r - 1) * b < a <= r * b)
    && (b < 0 ==> r * b <= a < (r - 1) * b)
  }

  /** Height and width of one backbone feature map. */
  datatype FeatureShape = FeatureShape(height: int, width: int)

  /** The exceptions `compute_backbone_shapes` can raise: an image shape
      with fewer than two entries (IndexError) and a zero stride
      (ZeroDivisionError). */
  datatype ShapeError = ShapeTooShort | ZeroStride

  /** `compute_backbone_shapes`: one `[ceil(H/s), ceil(W/s)]` row per stride,
      in stride order; the row for a stride evaluates `image_shape[0]`, the
      division and then `image_shape[1]`, so the first failing step names
      the exception. */
  function BackboneShapes(imageShape: seq<int>, strides: seq<int>): (r: Result<seq<FeatureShape>, ShapeError>)
    ensures r.Failure? <==> (|strides| > 0 && |imageShape| < 2) || 0 in strides
    ensures r.Failure? && |imageShape| >= 2 ==> r.error == ZeroStride
    ensures r.Success? ==> |r.value| == |strides|
    ensures r.Success? && |strides| > 0 ==>
      && |imageShape| >= 2
      && forall i :: 0 <= i < |strides| ==>
           IsCeilOf(r.value[i].height, imageShape[0], strides[i]) &&
           IsCeilOf(r.value[i].width, imageShape[1], strides[i])
    decreases |strides|
  {
    if |strides| == 0 then Success([])
    else if |imageShape| < 1 then Failure(ShapeTooShort)
    else if strides[0] == 0 then Failure(ZeroStride)
    else if |imageShape| < 2 then Failure(ShapeTooShort)
    else
      var row := FeatureShape(CeilDiv(imageShape[0], strides[0]), CeilDiv(imageShape[1], strides[0]));
      match BackboneShapes(imageShape, strides[1..])
      case Failure(e) =>
        assert 0 in strides[1..];
        Failure(e)
      case Success(rest) =>
        assert forall s :: s in strides ==> s == strides[0] || s in strides[1..];
        Success([row] + rest)
  }

  /** Multiplying by a positive number keeps order. */
  lemma MulMonotone(x: int, y: int, s: int)
    requires s > 0 && x <= y
    ensures x * s <= y * s
  {
    var d := y - x;
    assert y * s == x * s + d * s;
  }

  /** A ceiling that lands on a multiple is exact. */
  lemma CeilOfMultiple(r: int, t: int, s: int)
    requires s > 0
    requires IsCeilOf(r, s * t, s)
    ensures r == t
  {
    assert s * t == t * s;
    if r < t {
      MulMonotone(r, t - 1, s);
    } else if r > t {
      MulMonotone(t, r - 1, s);
    }
  }

  /** For sides that are multiples of 64 and strides that divide 64, every
      feature-map side times its stride gives back the image side, so the
      pyramid levels up- and down-sample without rounding. */
  lemma FeatureShapesScaleBack(imageShape: seq<int>, strides: seq<int>)
    requires |imageShape| >= 2
    requires imageShape[0] % Granularity == 0 && imageShape[1] % Granularity == 0
    requires forall i :: 0 <= i < |strides| ==> strides[i] > 0 && Granularity % strides[i] == 0
    ensures BackboneShapes(imageShape, strides).Success?
    ensures forall i :: 0 <= i < |strides| ==>
      && BackboneShapes(imageShape, strides).value[i].height * strides[i] == imageShape[0]
      && BackboneShapes(imageShape, strides).value[i].width * strides[i] == imageShape[1]
  {
    var r := BackboneShapes(imageShape, strides);
    assert forall i :: 0 <= i < |strides| ==> strides[i] != 0;
    forall i | 0 <= i < |strides|
      ensures r.value[i].height * strides[i] == imageShape[0]
      ensures r.value[i].width * strides[i] == imageShape[1]
    {
      SideScalesBack(r.value[i].height, imageShape[0], strides[i]);
      SideScalesBack(r.value[i].width, imageShape[1], strides[i]);
    }
  }

  /** One side of `FeatureShapesScaleBack`. */
  lemma SideScalesBack(r: int, side: int, s: int)
    requires side % Granularity == 0
    requires s > 0 && Granularity % s == 0
    requires IsCeilOf(r, side, s)
    ensures r * s == side
  {
    var k := 64 / s;
    var m := side / 64;
    assert 64 == s * k;
    assert side == 64 * m;
    assert side == s * (k * m);
    CeilOfMultiple(r, k * m, s);
  }
}

=== FILE: text.dfy ===
/**
 * Character classes, case folding, ordering, substitution and decimal
 * formatting of Python strings, as far as the checkpoint bookkeeping uses them.
 * Characters are compared by code point, as Python does.
 */
module Text {

  predicate IsDigit(c: char) {
    '0' <= c <= '9'
  }

  /** The regex class `[\w-]`, restricted to ASCII. */
  predicate IsNameChar(c: char) {
    IsDigit(c) || ('a' <= c <= 'z') || ('A' <= c <= 'Z') || c == '_' || c == '-'
  }

  /** The regex class `[/\\]`. */
  predicate IsSeparator(c: char) {
    c == '/' || c == '\\'
  }

  predicate AllDigits(s: string) {
    forall i :: 0 <= i < |s| ==> IsDigit(s[i])
  }

  predicate AllNameChars(s: string) {
    forall i :: 0 <= i < |s| ==> IsNameChar(s[i])
  }

  predicate StartsWith(s: string, prefix: string) {
    |prefix| <= |s| && s[..|prefix|] == prefix
  }

  /** `str.lower()` on one character; only ASCII letters change. */
  function LowerChar(c: char): (d: char)
    ensures IsNameChar(c) <==> IsNameChar(d)
    ensures IsDigit(c) <==> IsDigit(d)
    ensures d != c ==> 'A' <= c <= 'Z'
  {
    if 'A' <= c <= 'Z' then (c as int + 32) as char else c
  }

  /** `str.lower()`: same length, no ASCII capital left, and only capitals change. */
  function Lower(s: string): (r: string)
    ensures |r| == |s|
    ensures forall i :: 0 <= i < |s| ==> r[i] == LowerChar(s[i])
    ensures forall i :: 0 <= i < |r| ==> !('A' <= r[i] <= 'Z')
    ensures forall i :: 0 <= i < |s| && r[i] != s[i] ==> 'A' <= s[i] <= 'Z' && r[i] as int == s[i] as int + 32
  {
    seq(|s|, i requires 0 <= i < |s| => LowerChar(s[i]))
  }

  lemma LowerKeepsNameChars(s: string)
    requires AllNameChars(s)
    ensures AllNameChars(Lower(s))
  {
    forall i | 0 <= i < |s|
      ensures IsNameChar(Lower(s)[i])
    {
      assert IsNameChar(s[i]);
    }
  }

  /** Python's `a <= b` on strings: lexicographic by code point, a prefix sorts first. */
  predicate LexLe(a: string, b: string)
    ensures StartsWith(b, a) ==> LexLe(a, b)
    ensures |a| > 0 && |b| > 0 && a[0] != b[0] ==> (LexLe(a, b) <==> a[0] < b[0])
    ensures LexLe(a, b) && |a| > 0 ==> |b| > 0 && a[0] <= b[0]
    decreases |a|
  {
    |a| == 0 || (|b| > 0 && (a[0] < b[0] || (a[0] == b[0] && LexLe(a[1..], b[1..]))))
  }

  lemma {:induction false} LexLeReflexive(a: string)
    ensures LexLe(a, a)
    decreases |a|
  {
    if |a| > 0 {
      LexLeReflexive(a[1..]);
    }
  }

  lemma {:induction false} LexLeTotal(a: string, b: string)
    ensures LexLe(a, b) || LexLe(b, a)
    decreases |a|
  {
    if |a| > 0 && |b| > 0 && a[0] == b[0] {
      LexLeTotal(a[1..], b[1..]);
    }
  }

  lemma {:induction false} LexLeTransitive(a: string, b: string, c: string)
    requires LexLe(a, b) && LexLe(b, c)
    ensures LexLe(a, c)
    decreases |a|
  {
    if |a| > 0 && a[0] == b[0] && b[0] == c[0] {
      LexLeTransitive(a[1..], b[1..], c[1..]);
    }
  }

  lemma {:induction false} LexLeAntisymmetric(a: string, b: string)
    requires LexLe(a, b) && LexLe(b, a)
    ensures a == b
    decreases |a|
  {
    if |a| > 0 {
      LexLeAntisymmetric(a[1..], b[1..]);
      assert a == [a[0]] + a[1..];
      assert b == [b[0]] + b[1..];
    }
  }

  /** Python's `s.replace(pattern, replacement)`: every non-overlapping
      occurrence, scanning left to right. */
  function ReplaceAll(s: string, pattern: string, replacement: string): (r: string)
    requires |pattern| > 0
    ensures pattern[0] !in s ==> r == s
    ensures |replacement| == |pattern| ==> |r| == |s|
    decreases |s|
  {
    if |s| < |pattern| then s
    else if s[..|pattern|] == pattern then replacement + ReplaceAll(s[|pattern|..], pattern, replacement)
    else [s[0]] + ReplaceAll(s[1..], pattern, replacement)
  }

  /** Text that cannot start an occurrence is copied unchanged, and the
      substitution continues after it. */
  lemma {:induction false} ReplaceAllSkips(a: string, b: string, pattern: string, replacement: string)
    requires |pattern| > 0
    requires pattern[0] !in a
    ensures ReplaceAll(a + b, pattern, replacement) == a + ReplaceAll(b, pattern, replacement)
    decreases |a|
  {
    if |a| > 0 {
      var s := a + b;
      if |s| < |pattern| {
        assert |b| < |pattern|;
        assert ReplaceAll(b, pattern, replacement) == b;
        ReplaceAllSkips(a[1..], b, pattern, replacement);
        assert a[1..] + b == s[1..];
      } else {
        assert s[..|pattern|][0] == a[0] != pattern[0];
        assert s[1..] == a[1..] + b;
        ReplaceAllSkips(a[1..], b, pattern, replacement);
        assert a == [a[0]] + a[1..];
      }
    } else {
      assert a + b == b;
    }
  }

  /** An occurrence at the front is replaced and the scan resumes after it. */
  lemma ReplaceAllAtFront(b: string, pattern: string, replacement: string)
    requires |pattern| > 0
    ensures ReplaceAll(pattern + b, pattern, replacement) == replacement + ReplaceAll(b, pattern, replacement)
  {
    var s := pattern + b;
    assert s[..|pattern|] == pattern;
    assert s[|pattern|..] == b;
  }

  /** A character outside the pattern cuts the substitution in two: no
      occurrence can straddle it. */
  lemma {:induction false} ReplaceAllSplit(a: string, c: char, b: string, pattern: string, replacement: string)
    requires |pattern| > 0 && c !in pattern
    ensures ReplaceAll(a + ([c] + b), pattern, replacement)
            == ReplaceAll(a, pattern, replacement) + ([c] + ReplaceAll(b, pattern, replacement))
    decreases |a|
  {
    var s := a + ([c] + b);
    var n := |pattern|;
    if |a| == 0 {
      SplitAtCut(c, b, pattern, replacement);
      assert s == [c] + b;
    } else if |s| < n {
      assert ReplaceAll(s, pattern, replacement) == s;
    } else if s[..n] == pattern {
      PatternAtCut(a, c, b, pattern);
      ReplaceAllSplit(a[n..], c, b, pattern, replacement);
      SplitAfterMatch(a, c, b, pattern, replacement);
    } else {
      ReplaceAllSplit(a[1..], c, b, pattern, replacement);
      SplitAfterMiss(a, [c] + b, [c] + ReplaceAll(b, pattern, replacement), pattern, replacement);
    }
  }

  lemma SplitAtCut(c: char, b: string, pattern: string, replacement: string)
    requires |pattern| > 0 && c !in pattern
    ensures ReplaceAll([c] + b, pattern, replacement) == [c] + ReplaceAll(b, pattern, replacement)
    ensures ReplaceAll([], pattern, replacement) == []
  {
    var s := [c] + b;
    if |s| >= |pattern| {
      assert s[..|pattern|][0] == c != pattern[0];
      assert s[1..] == b;
    }
  }

  lemma SplitAfterMatch(a: string, c: char, b: string, pattern: string, replacement: string)
    requires |pattern| > 0 && |pattern| <= |a| && a[..|pattern|] == pattern
    requires ReplaceAll(a[|pattern|..] + ([c] + b), pattern, replacement)
             == ReplaceAll(a[|pattern|..], pattern, replacement) + ([c] + ReplaceAll(b, pattern, replacement))
    ensures ReplaceAll(a + ([c] + b), pattern, replacement)
            == ReplaceAll(a, pattern, replacement) + ([c] + ReplaceAll(b, pattern, replacement))
  {
    var s := a + ([c] + b);
    assert s[..|pattern|] == pattern;
    assert s[|pattern|..] == a[|pattern|..] + ([c] + b);
  }

  lemma SplitAfterMiss(a: string, tail: string, x: string, pattern: string, replacement: string)
    requires |pattern| > 0 && |a| > 0 && |a + tail| >= |pattern|
    requires (a + tail)[..|pattern|] != pattern
    requires ReplaceAll(a[1..] + tail, pattern, replacement) == ReplaceAll(a[1..], pattern, replacement) + x
    ensures ReplaceAll(a + tail, pattern, replacement) == ReplaceAll(a, pattern, replacement) + x
  {
    var s := a + tail;
    var t := ReplaceAll(a[1..], pattern, replacement);
    assert s[1..] == a[1..] + tail;
    assert s[0] == a[0] && s[..|a|] == a;
    assert ReplaceAll(s, pattern, replacement) == [a[0]] + (t + x);
    MissOnFront(a, s, pattern, replacement);
    assert [a[0]] + (t + x) == ([a[0]] + t) + x;
  }

  /** Where an occurrence does not start at the front of `a + …`, the
      substitution of `a` alone copies its first character too. */
  lemma MissOnFront(a: string, s: string, pattern: string, replacement: string)
    requires |pattern| > 0 && 0 < |a| <= |s| && |s| >= |pattern| && s[..|a|] == a && s[..|pattern|] != pattern
    ensures ReplaceAll(a, pattern, replacement) == [a[0]] + ReplaceAll(a[1..], pattern, replacement)
  {
    if |a| >= |pattern| {
      assert a[..|pattern|] == s[..|pattern|];
    } else {
      assert a == [a[0]] + a[1..];
    }
  }

  /** An occurrence at the front of `a + [c] + b` that reaches past `a`
      holds `c`. */
  lemma PatternAtCut(a: string, c: char, b: string, pattern: string)
    requires |pattern| <= |a| + 1 + |b| && (a + ([c] + b))[..|pattern|] == pattern
    ensures |a| < |pattern| ==> pattern[|a|] == c
  {
    if |a| < |pattern| {
      assert (a + ([c] + b))[|a|] == c;
    }
  }

  /** A character in neither the text nor the replacement is not in the result. */
  lemma {:induction false} ReplaceAllAvoids(s: string, c: char, pattern: string, replacement: string)
    requires |pattern| > 0 && c !in s && c !in replacement
    ensures c !in ReplaceAll(s, pattern, replacement)
    decreases |s|
  {
    if |s| >= |pattern| {
      if s[..|pattern|] == pattern {
        ReplaceAllAvoids(s[|pattern|..], c, pattern, replacement);
      } else {
        ReplaceAllAvoids(s[1..], c, pattern, replacement);
      }
    }
  }

  function DigitChar(d: nat): (c: char)
    requires d < 10
    ensures IsDigit(c)
  {
    ('0' as int + d) as char
  }

  function DigitValue(c: char): (d: nat)
    requires IsDigit(c)
    ensures d < 10 && DigitChar(d) == c
  {
    c as int - '0' as int
  }

  function Pow10(n: nat): (p: nat)
    ensures p >= 1
  {
    if n == 0 then 1 else 10 * Pow10(n - 1)
  }

  /** Python's `'{:0<width>d}'.format(n)`: the decimal digits of `n`, padded
      on the left with zeros to at least `width` characters. */
  function Decimal(n: nat, width: nat): (r: string)
    ensures AllDigits(r)
    ensures |r| >= 1 && |r| >= width
    decreases n + width
  {
    if n < 10 && width <= 1 then [DigitChar(n)]
    else Decimal(n / 10, if width == 0 then 0 else width - 1) + [DigitChar(n % 10)]
  }

  /** Python's `int(s)` on a string of ASCII digits. */
  function DigitsValue(s: string): (n: nat)
    requires AllDigits(s)
    ensures n < Pow10(|s|)
    decreases |s|
  {
    if |s| == 0 then 0
    else DigitsValue(s[..|s| - 1]) * 10 + DigitValue(s[|s| - 1])
  }

  /** Reading back a formatted number gives the number. */
  lemma {:induction false} DecimalRoundTrip(n: nat, width: nat)
    ensures DigitsValue(Decimal(n, width)) == n
    decreases n + width
  {
    var r := Decimal(n, width);
    if n < 10 && width <= 1 {
      assert r[..|r| - 1] == [];
    } else {
      var w' := if width == 0 then 0 else width - 1;
      DecimalRoundTrip(n / 10, w');
      assert r[..|r| - 1] == Decimal(n / 10, w');
      assert DigitValue(r[|r| - 1]) == n % 10;
    }
  }

  /** Writing back a digit string read with `int` at its own width gives
      the string: the zero padding restores the leading zeros. */
  lemma {:induction false} DigitsRoundTrip(s: string)
    requires |s| >= 1 && AllDigits(s)
    ensures Decimal(DigitsValue(s), |s|) == s
    decreases |s|
  {
    var n := DigitsValue(s);
    var init := s[..|s| - 1];
    if |s| >= 2 {
      DigitsRoundTrip(init);
      assert n / 10 == DigitsValue(init) && n % 10 == DigitValue(s[|s| - 1]);
      assert s == init + [s[|s| - 1]];
    }
  }

  /** A number below `10^width` is written with exactly `width` digits. */
  lemma {:induction false} DecimalWidth(n: nat, width: nat)
    requires width >= 1 && n < Pow10(width)
    ensures |Decimal(n, width)| == width
    decreases width
  {
    if !(n < 10 && width <= 1) {
      assert width >= 2;
      DecimalWidth(n / 10, width - 1);
    }
  }
}

=== FILE: wrappers.dfy ===
/** Failure-carrying wrappers shared by every module of the model. */
module Wrappers {

  /** A value that may be absent (Python's `None`). */
  datatype Option<+T> = None | Some(value: T)

  /** Either a value or the exception the source would raise instead. */
  datatype Result<+T, +E> = Success(value: T) | Failure(error: E)
}
